=== FILE: README.md ===
# PiNAS fan control and status server, modelled in Dafny

This project models two programs of a Raspberry Pi NAS.

**The hardware-PWM fan controller** (`applications/fan_control_hwpwm.py`):
- It maps the CPU temperature to a duty-cycle percentage.
- It converts that percentage to the nanosecond value it writes to PWM channel 0 of `pwmchip0`.
- It runs a setup / tick loop / cleanup sequence against the sysfs PWM files.

**The status web server** (`applications/homepage/server.py`), the pure parts only:
- `get_tasks`: parses the output of `ps aux`.
- `get_network`: parses `/proc/net/dev`.
- `get_fan`: chooses which PWM files to read and computes the duty percentage.
- `do_GET`: routes a request by the path `urlparse` extracts.

Modules:

- `FanController` (`fan_controller.dfy`): the temperature-to-duty map and the percent-to-nanosecond conversion. Temperatures are exact rationals: whole millidegrees divided by 1000. Python's `round` is round-half-to-even, and `int()` truncates toward zero.
- `FanLifecycle` (`fan_lifecycle.dfy`): the driver as a trace of `Action`s.
  - Each sysfs write attempt is recorded with whether it succeeded.
  - An `Env` value supplies everything outside the program: whether the channel is already exported, which writes fail, the sensor samples, and how the loop ends.
  - `Replay` folds a trace into the state of the PWM channel (`Hw`). The safety properties are stated against that state.
- `Text` (`text.dfy`): the Python `str` behaviour the server relies on.
  - `isspace`, `split()`, `split(None, n)`, `split('\n')`, `strip()`, `rstrip(c)`.
  - `IsSpace` accepts the same code points as Python's `str.isspace`.
  - The substring test `in`, slicing, `int()` and `str()`.
  - `Optional` (same file) is the usual `Option` type.
- `Tasks`, `Network`, `FanStatus`, `Routing`: one module per server handler. A file or a command's output is an input value. `None` stands for "could not be read or run".

The controller has no hysteresis, no minimum on-time, no two-speed mode and no separate duty ceiling. It recomputes and writes the duty on every tick, and its only bounds are the 37 and 45 degree thresholds.

## Model

| member | source | states |
|---|---|---|
| FanController.CelsiusOf | applications/fan_control_hwpwm.py:78-81 | The sensor's millidegree reading divided by 1000: the result times 1000 is the reading. |
| FanController.RoundHalfEven | applications/fan_control_hwpwm.py:93 | Python's `round`: the result is within one half of the argument, and is even when the argument is exactly halfway. |
| FanController.RoundHalfEvenUnique | applications/fan_control_hwpwm.py:93 | Those two properties single out one integer, so they define `round` completely. |
| FanController.RoundHalfEvenMonotone | applications/fan_control_hwpwm.py:93 | Rounding never reverses the order of two values. |
| FanController.TempToDuty | applications/fan_control_hwpwm.py:83-93 | The duty is always in 0..100. It is 0 for every temperature at or below 37, including 37. It is 100 at or above 45, including 45. Strictly between them it is round-half-to-even of (t-37)/8*100. |
| FanController.TempToDutyMonotone | applications/fan_control_hwpwm.py:83-93 | A hotter reading never gives a lower duty, across all three branches. |
| FanController.TempToDutyExtremesInRamp | applications/fan_control_hwpwm.py:89-93 | Strictly between the thresholds, rounding gives 0 only up to 37.04 degrees and 100 only from 44.96 degrees. |
| FanController.TruncateToInt | applications/fan_control_hwpwm.py:53 | Python's `int()` on a number truncates toward zero, for both signs. |
| FanController.DutyToNs | applications/fan_control_hwpwm.py:50-55 | The written value is exactly duty/100 of the period (10,000,000 ns at 100 Hz): nothing is lost to truncation. |
| FanController.DutyToNsInPeriod | applications/fan_control_hwpwm.py:19-21 | For a duty in 0..100 the value never exceeds the period. 0 maps to 0 and 100 to the full period, each only from that duty. The map is strictly increasing. |
| FanController.CommandedNs | applications/fan_control_hwpwm.py:102-104 | A tick writes a value within one period, equal to the temperature's duty times the period over 100. |
| FanController.CommandedNsMonotone | applications/fan_control_hwpwm.py:102-104 | A warmer reading never commands a shorter pulse. |
| FanLifecycle.Setup | applications/fan_control_hwpwm.py:27-48 | The trace follows a fixed order, and each step is present only if every write before it succeeded. First comes the export write, attempted only when the channel does not already exist. A 0.1 s settle follows a successful export. Then comes the period write of 10 000 000 ns, then the enable write of `1`. A failed write is always the last action, and setup stops early only on a failed write. Setup succeeds exactly when no attempted write fails. Setup never writes a duty, never disables and never reads the sensor. |
| FanLifecycle.SetupConfiguresChannel | applications/fan_control_hwpwm.py:27-48 | A successful setup leaves the channel exported and enabled with the 100 Hz period. |
| FanLifecycle.LoopTickAt | applications/fan_control_hwpwm.py:101-106 | Tick i reads sample i, writes the duty computed from that reading, and sleeps 2 s. No change detection and no skipping. |
| FanLifecycle.TickAppliesItsReading | applications/fan_control_hwpwm.py:101-106 | After tick i the channel's duty is the one from tick i's own reading if its write succeeded. If the write failed, the duty is the previous one. |
| FanLifecycle.LoopHasNoDisableOrUnexport | applications/fan_control_hwpwm.py:101-106 | The main loop never disables or unexports the channel. |
| FanLifecycle.Cleanup | applications/fan_control_hwpwm.py:59-76 | The cleanup attempts a duty write of 0, a 0.1 s settle, then a disable. It attempts the unexport exactly when the disable succeeded. A failed duty write does not stop it. |
| FanLifecycle.RunController | applications/fan_control_hwpwm.py:95-113 | Every run starts with the setup sequence and ends with the cleanup sequence: normal interrupt, setup failure and sensor failure alike. The exit cause matches the setup outcome and the sensor. A failed setup is followed directly by cleanup and never reads the sensor. After a successful setup there is one read-write-sleep tick per sensor sample, in order, and nothing else: the trace is exactly setup, three actions per sample, then cleanup. |
| FanLifecycle.ReplayCleanup | applications/fan_control_hwpwm.py:59-76 | The cleanup writes duty 0, then disables, then unexports. A failed duty write is only logged. A failed disable abandons the rest: the channel's state after the whole cleanup is its state after the disable attempt. |
| FanLifecycle.RunDisablesOnlyAtZeroDuty | applications/fan_control_hwpwm.py:62-68 | On every run, each disable write comes after a duty write of 0, with no other duty write in between. |
| FanLifecycle.RunUnexportsOnlyDisabled | applications/fan_control_hwpwm.py:66-72 | On every run the channel is unexported only when the output is already disabled. |
| FanLifecycle.RunLeavesFanStopped | applications/fan_control_hwpwm.py:59-76 | After any run the duty is 0 unless that write failed. The output is disabled unless that write failed. The channel is unexported when both the disable and the unexport succeeded. |
| Text.Split | applications/homepage/server.py:146 | Every piece `split()` returns is a non-empty run of non-whitespace. |
| Text.SplitConcat | applications/homepage/server.py:146 | `split()` of a concatenation is the concatenation of the splits whenever the cut is next to whitespace or at an end. With a word splitting to itself, this determines `split()` completely. |
| Text.SplitEmpty | applications/homepage/server.py:146 | `split()` gives no words exactly when the string is all whitespace. |
| Text.SplitJoinSpaced | applications/homepage/server.py:146 | `split()` reads back exactly the words a single-spaced line was made of. |
| Text.SplitMax | applications/homepage/server.py:193 | `split(None, n)` gives at most n+1 pieces. When it gives n+1, the last piece is non-empty and starts with a non-whitespace character. |
| Text.SplitMaxRest | applications/homepage/server.py:193 | When `split(None, n)` makes n splits, the last piece is the input from the start of its (n+1)-th word to the very end. That start follows whitespace (or is index 0) and has exactly n words before it. |
| Text.SplitMaxWords | applications/homepage/server.py:193 | `split(None, n)` equals `split()` when there are at most n words. Otherwise it gives the first n words and one remainder, and the remainder's own words are all the rest. |
| Text.SplitMaxJoinSpaced | applications/homepage/server.py:193 | `split(None, n)` of a line of more than n words gives the first n words and then the rest of the line verbatim. |
| Text.Strip | applications/homepage/server.py:188 | `strip()` returns a contiguous piece of the input that neither begins nor ends with whitespace. Everything before and after that piece is whitespace. |
| Text.StripUnchanged | applications/homepage/server.py:188 | `strip()` leaves a string alone when it neither begins nor ends with whitespace. |
| Text.SplitOn | applications/homepage/server.py:188 | `split('\n')` gives at least one piece, and no piece holds a line break. |
| Text.SplitOnJoinOn | applications/homepage/server.py:188 | `split('\n')` reads back the lines `'\n'.join` wrote, when no line holds a line break. |
| Text.JoinSplitOn | applications/homepage/server.py:188 | Joining the pieces of `split(sep)` with `sep` gives the string back. |
| Text.Slice | applications/homepage/server.py:192 | Python's clamped slice `s[lo:hi]`: the exact slice when in range, the tail when `hi` is past the end, empty when `lo` is. |
| Text.Take | applications/homepage/server.py:199 | `s[:n]` is the prefix of length min(len(s), n). |
| Text.Contains | applications/homepage/server.py:145 | `sub in s` holds exactly when `sub` occurs in `s` at some index. |
| Text.RStripChar | applications/homepage/server.py:147 | `rstrip(':')` removes exactly the trailing run of colons: a prefix is kept, every removed character is a colon, and the result does not end in one. |
| Text.ParseInt | applications/homepage/server.py:148-149 | `int()` accepts exactly an optional `+` or `-` followed by at least one ASCII digit. The value is the digits' decimal value, negated after `-`. |
| Text.ParseNatToString | applications/homepage/server.py:148-149 | `int(str(n)) == n` for every natural number. |
| Text.ParseNegNatToString | applications/homepage/server.py:148-149 | `int('-' + str(n)) == -n` for every natural number. |
| Tasks.ParseTask | applications/homepage/server.py:193-200 | A line is dropped exactly when it has fewer than 11 fields. A kept line gives pid, CPU and memory from fields 1-3. The command is the first 50 characters of the line from the start of field 10 to the very end, padding and later fields included. That start follows whitespace and has exactly 10 fields before it. |
| Tasks.ParseTaskOfRow | applications/homepage/server.py:193-200 | A single-spaced process line yields its fields 1-3 and its text from field 10 on, cut to 50 characters. |
| Tasks.KeepTasksMembers | applications/homepage/server.py:192-200 | Every task comes from some line, and every complete line gives its task. |
| Tasks.KeepTasksAppend | applications/homepage/server.py:192-200 | The tasks of concatenated lines are the concatenated tasks: lines are independent and keep their order. |
| Tasks.Window | applications/homepage/server.py:192 | At most 15 lines are looked at, the ones right after the header. |
| Tasks.GetTasks | applications/homepage/server.py:175-204 | A command that cannot run gives no tasks and an error. Otherwise there is no error and at most 15 tasks. Every task is parsed from one of lines 1 to 15 of the stripped output, and every one of those lines that parses gives its task. |
| Tasks.KeepTasksOrder | applications/homepage/server.py:192-200 | Two lines that parse give their tasks in the order of the lines. |
| Tasks.GetTasksInOrder | applications/homepage/server.py:192-202 | The response lists the tasks of lines 1 to 15 in the order `ps` printed them. |
| Tasks.ListingLines | applications/homepage/server.py:188 | The lines of a listing made of a header and single-spaced process lines are read back exactly. |
| Tasks.TasksOfListing | applications/homepage/server.py:188-202 | For a listing of a header and single-spaced, well-formed process lines, the response is the first min(n, 15) processes, in order, each with pid, CPU, memory and command cut to 50 characters. Padded `ps` columns are covered by `ParseTask`'s contract instead. |
| Network.ParseDevLine | applications/homepage/server.py:146-149 | A line parses exactly when it has at least 10 fields and fields 1 and 9 are integers. The counters are those integers. The name is field 0 with its trailing colons removed: a prefix of field 0 that does not end in a colon, with only colons after it. |
| Network.DevLineIsKernelLine | applications/homepage/server.py:146 | A single-spaced line of name, colon and counters, with any whitespace before it, has the kernel line's fields. |
| Network.ParseDevLineOfKernelLine | applications/homepage/server.py:146-149 | Any line whose fields are a name with a colon and the counters, however its columns are padded, reads back as the name, received bytes from field 1 and transmitted bytes from field 9. |
| Network.CollectSnoc | applications/homepage/server.py:144-162 | One more line: an unselected line changes nothing. A selected line that fails to parse fails everything. A parsed line overrides the same interface's earlier entry. |
| Network.CollectFailsOnBadLine | applications/homepage/server.py:144-149 | A selected line that does not parse, wherever it is, fails the whole collection. |
| Network.CollectKeepsUnnamed | applications/homepage/server.py:144-162 | A name that no parsed line supplies keeps its record, or stays absent. |
| Network.GetNetwork | applications/homepage/server.py:134-173 | The result always has exactly the keys `wlan1` and `wlan0`. An unreadable file marks both as failed. A readable file marks both as failed exactly when a selected line after the header does not parse. A file of at most two lines gives both the zero record. Either both records are failed or neither is. |
| Network.CollectSucceeds | applications/homepage/server.py:144-149 | When every selected line parses, nothing raises. |
| Network.CollectLastEntry | applications/homepage/server.py:144-162 | The last selected line that parses to a name decides that name's entry: its counters, with no error. |
| Network.PresentInterfaceReported | applications/homepage/server.py:134-168 | For any file: a selected line after the header that parses to `wlan1` or `wlan0` is reported with its field 1 and field 9 counters. This holds when no later selected line parses to the same name and no selected line after the header fails to parse. Lines of other interfaces, such as `lo`, may appear anywhere. |
| Network.KernelLineReported | applications/homepage/server.py:134-168 | The same for a line with the kernel's fields, at any position and with any padding: the interface gets that line's received and transmitted byte counters. |
| Network.HeaderIgnored | applications/homepage/server.py:144 | The first two lines never affect the result, whatever they contain. |
| Network.AbsentInterfaceDefaults | applications/homepage/server.py:134-173 | An interface that no line after the header names gets the all-zero record with no error. The exception is when a selected line after the header does not parse: then it gets the failed record. |
| Network.BodyFailsExactlyOnBadLine | applications/homepage/server.py:144-149 | Collecting the lines after the header fails exactly when one of them is selected and does not parse. |
| Network.BadLineFailsBoth | applications/homepage/server.py:169-173 | A selected line after the header that does not parse makes both records the error record. |
| Network.KernelLineSelected | applications/homepage/server.py:145 | A line for `wlan1` or `wlan0` whose first field is the name with a colon is selected by the substring test, however it is padded. |
| Network.ReportsBothInterfaces | applications/homepage/server.py:134-168 | A file of exactly two header lines, then a `wlan1` line, then a `wlan0` line, each with the name and counters as its fields and any padding, reports each interface's field 1 and field 9 counters, with no error. |
| FanStatus.FirstExisting | applications/homepage/server.py:226-237 | The first path in list order that exists supplies the contents. There is none exactly when no path exists. |
| FanStatus.ReadFirst | applications/homepage/server.py:226-237 | Reading a list: absent exactly when no path exists. Otherwise the first existing file decides: its stripped contents are either an integer, which is returned, or not, which is the error Python raises. |
| FanStatus.GetFan | applications/homepage/server.py:206-258 | "PWM not found" exactly when no duty file exists and the period list does not raise. Without an error the value is the integer in the first existing duty file. A period is reported only when it is the positive integer in the first existing period file. With no error and no period reported, that file holds no positive integer or does not exist. The response is `Report` applied to the first existing duty file's reading and the first existing period file's reading. So every combination of files gets `Report`'s percentage and error rules. |
| FanStatus.Percent | applications/homepage/server.py:240 | The percentage times the scale is the value times 100. |
| FanStatus.Report | applications/homepage/server.py:239-258 | A garbled file is an error. With a positive period: duty/period*100, with the period reported. With a duty and no positive period: duty/255*100. With no duty file: 0 and "PWM not found". Any error reports 0 and pwm_value 0. |
| FanStatus.ReportRecoversCommandedDuty | applications/homepage/server.py:239-246 | The files the controller writes for a duty of d percent are reported back as exactly d percent, with the controller's value and period, whatever the other candidate files hold. |
| Routing.IndexOf | applications/homepage/server.py:21 | The first occurrence of a character, or the length when there is none. |
| Routing.LastIndexOf | applications/homepage/server.py:21 | The last occurrence of a character, absent exactly when it does not occur. |
| Routing.Route | applications/homepage/server.py:19-48 | The chain of path comparisons agrees with the API table. Any other path falls through to static serving of the unparsed target. |
| Routing.AllHasSixKeys | applications/homepage/server.py:36-45 | `/api/all` has exactly the six keys cpu_temp, cpu_freq, ram, network, tasks and fan. |
| Routing.AllSectionsOnce | applications/homepage/server.py:36-45 | Each key of `/api/all` names a different section, and every section is present. |
| Routing.SectionsServedAtTheirKeys | applications/homepage/server.py:24-35 | Each section is served alone at `/api/<key>`, its key in `/api/all`, with or without a query string. |
| Routing.UrlPath | applications/homepage/server.py:21 | `urlparse`'s path never holds `?` or `#`, and is a prefix of some suffix of the target. For a target that starts with a single `/`, it is a prefix of the target itself. |
| Routing.UrlPathOfOrigin | applications/homepage/server.py:21 | For any target that starts with a single `/`, the path is the target up to its first `?` or `#`, with the parameters of its last segment cut off. That cut is at the first `;` after the last `/`, and nothing is cut when that segment has no `;`. |
| Routing.PlainPathKept | applications/homepage/server.py:21 | A plain absolute path is its own `urlparse` path, and a query or fragment after it does not change that. |
| Routing.ParamsDropped | applications/homepage/server.py:21 | `;parameters` after the last segment are dropped from the path too, so `/api/fan;x` still routes to the fan. |
| Routing.OtherPathsAreStatic | applications/homepage/server.py:46-48 | Any plain path outside the API table is served as a static file. |

## Left out

- Reading and writing sysfs and procfs files, `os.path.exists`, `time.sleep` and logging. Their results are inputs (`Env`, the `FileSystem` map, line lists), or `Action`s in the trace.
- The `ps` subprocess call itself, including its 2-second timeout. Its standard output is the input, and `None` stands for a failure to run it.
- `http.server` and `socketserver` request handling, JSON encoding, CORS headers, `send_json`, `log_message` and the startup banner.
- The handlers `get_cpu_temp`, `get_cpu_freq` and `get_ram` are not modelled, because their results are floats rounded for display. Only `get_cpu_temp` picks the first existing of several paths, the rule `FanStatus.FirstExisting` models for the fan:
  - `get_cpu_temp` reads the first existing of three sensor files, answers "No thermal sensor found" when none exists, and reports an unparsable reading as an error.
  - `get_cpu_freq` reads one file per core until one is missing, and averages the frequencies.
  - `get_ram` reads three fields of `/proc/meminfo` with regular expressions.
  - Only their place in the routing table is modelled.
- Network.GetNetwork: the response lists `wlan1` before `wlan0`. The model returns a `map`, which has no order, so that order is not stated.
- IEEE-754 floats. All arithmetic is exact. In particular:
  - Results can differ from CPython at exact `.5` ties of the ramp.
  - `round(x, 1)`, the `/1024` megabyte figures and the always-zero rates are not modelled.
- FanController.DutyToNs: computed exactly. CPython computes `duty_percent / 100.0 * PWM_PERIOD_NS` in floats, and a product that lands just below an integer truncates to one nanosecond less.
- FanLifecycle.RunController: an interrupt is modelled only between ticks or right after setup (an `Env` with no samples). An interrupt part-way through setup or a tick is not modelled.
- FanLifecycle.RunController: an `Env` lists the successful sensor reads and then one way out. A run therefore ends after finitely many ticks; the unbounded loop is every finite prefix.
- Exception messages become flags: `TasksReport.failed`, `IfaceStats.error`, `FanError.Unreadable`.
- FanStatus.ReadFirst: a path that exists but cannot be opened raises in the source; the model treats every existing path as readable.
- Text.ParseInt: Python's `int()` also accepts underscores between digits and non-ASCII decimal digits. The model accepts an optional sign and ASCII digits only. Inputs are stripped or split first, as in the source.
- Routing.UrlPath: the version-dependent sanitising in `urlsplit` is left out. That is removing tabs and line breaks, and stripping leading control characters. Also left out: the `ValueError` raised for a bracketed network location that does not close, and the NFKC check of the network location.

=== FILE: fan_controller.dfy ===
/** The fan controller's decision logic: the piecewise map from CPU
    temperature to a duty-cycle percentage, and the conversion of that
    percentage to the nanosecond value written to the PWM channel.

    Temperatures are exact rationals: the sensor delivers whole
    millidegrees, which the controller divides by 1000. */
module FanController {

  /** PWM channel 0 of `pwmchip0` (GPIO 18). */
  const PwmChannel: nat := 0

  /** 100 Hz, which gives the full 0..100 % control range. */
  const PwmFrequency: nat := 100

  /** The PWM period in nanoseconds for `PwmFrequency`: one second divided
      by the frequency. */
  const PwmPeriodNs: nat := 1_000_000_000 / PwmFrequency

  /** At or below this temperature (degrees Celsius) the fan is off. */
  const FanOffTemp: int := 37

  /** At or above this temperature the fan runs at full speed. */
  const MaxTemp: int := 45

  /** The sensor's reading, in whole millidegrees, as degrees Celsius. */
  function CelsiusOf(milli: int): (t: real)
    ensures t * 1000.0 == milli as real
  {
    milli as real / 1000.0
  }

  /** Python's `round(x)`: the nearest integer, ties to the even one. */
  function RoundHalfEven(x: real): (r: int)
    ensures x - 0.5 <= r as real <= x + 0.5
    ensures (r as real - x == 0.5 || x - r as real == 0.5) ==> r % 2 == 0
  {
    var f := x.Floor;
    var frac := x - f as real;
    if frac < 0.5 then f
    else if frac > 0.5 then f + 1
    else if f % 2 == 0 then f
    else f + 1
  }

  /** The two properties in `RoundHalfEven`'s contract single out its
      result: no other integer is within one half and even on a tie. */
  lemma RoundHalfEvenUnique(x: real, n: int)
    requires x - 0.5 <= n as real <= x + 0.5
    requires (n as real - x == 0.5 || x - n as real == 0.5) ==> n % 2 == 0
    ensures n == RoundHalfEven(x)
  {
  }

  /** Rounding never reverses the order of two values. */
  lemma RoundHalfEvenMonotone(x: real, y: real)
    requires x <= y
    ensures RoundHalfEven(x) <= RoundHalfEven(y)
  {
    var a := RoundHalfEven(x);
    var b := RoundHalfEven(y);
    if a > b {
      assert a == b + 1;
      assert x == y;
    }
  }

  /** The linear ramp between the two thresholds, in percent, before
      rounding: 0 at `FanOffTemp`, 100 at `MaxTemp`. */
  function Ramp(t: real): real {
    (t - FanOffTemp as real) / (MaxTemp - FanOffTemp) as real * 100.0
  }

  /** The duty cycle, in percent, that the controller commands for
      temperature `t`: off at or below 37 degrees, full at or above 45,
      and in between the nearest integer to the linear ramp, ties to even. */
  function TempToDuty(t: real): (d: int)
    ensures 0 <= d <= 100
    ensures t <= FanOffTemp as real ==> d == 0
    ensures t >= MaxTemp as real ==> d == 100
    ensures FanOffTemp as real < t < MaxTemp as real ==>
              && Ramp(t) - 0.5 <= d as real <= Ramp(t) + 0.5
              && (d as real - Ramp(t) == 0.5 || Ramp(t) - d as real == 0.5 ==> d % 2 == 0)
  {
    if t <= FanOffTemp as real then 0
    else if t >= MaxTemp as real then 100
    else RoundHalfEven(Ramp(t))
  }

  /** A hotter reading never commands a slower fan, across all three
      branches. */
  lemma TempToDutyMonotone(t: real, u: real)
    requires t <= u
    ensures TempToDuty(t) <= TempToDuty(u)
  {
    if FanOffTemp as real < t && u < MaxTemp as real {
      RoundHalfEvenMonotone(Ramp(t), Ramp(u));
    }
  }

  /** Strictly between the thresholds, rounding reaches the extremes only
      near the ends of the ramp: the duty is 0 only for readings up to
      37.04 degrees and 100 only from 44.96 degrees. */
  lemma TempToDutyExtremesInRamp(t: real)
    requires FanOffTemp as real < t < MaxTemp as real
    ensures TempToDuty(t) == 0 ==> t <= 37.04
    ensures TempToDuty(t) == 100 ==> t >= 44.96
  {
  }

  /** Python's `int(x)`: truncation toward zero. */
  function TruncateToInt(x: real): (n: int)
    ensures 0.0 <= x ==> n as real <= x < n as real + 1.0
    ensures x < 0.0 ==> n as real - 1.0 < x <= n as real
  {
    if x >= 0.0 then x.Floor else -((-x).Floor)
  }

  /** The nanosecond value written to `duty_cycle` for a duty of
      `dutyPercent` percent: `int(dutyPercent / 100 * PwmPeriodNs)`. The
      period is a multiple of 100, so no truncation happens. */
  function DutyToNs(dutyPercent: int): (ns: int)
    ensures ns * 100 == dutyPercent * PwmPeriodNs
  {
    TruncateToInt(dutyPercent as real / 100.0 * PwmPeriodNs as real)
  }

  /** For a percentage in range the written value is within one period,
      0 maps to 0, 100 maps to the full period, and the map is strictly
      increasing. */
  lemma DutyToNsInPeriod(d: int, e: int)
    requires 0 <= d <= 100 && 0 <= e <= 100
    ensures 0 <= DutyToNs(d) <= PwmPeriodNs
    ensures DutyToNs(d) == 0 <==> d == 0
    ensures DutyToNs(d) == PwmPeriodNs <==> d == 100
    ensures d < e ==> DutyToNs(d) < DutyToNs(e)
  {
  }

  /** What a tick commands for a sensor reading of `milli` millidegrees:
      the reading is converted to degrees, mapped to a percentage, and the
      percentage to nanoseconds; the result never exceeds one period and
      grows with the reading. */
  function CommandedNs(milli: int): (ns: int)
    ensures 0 <= ns <= PwmPeriodNs
    ensures ns * 100 == TempToDuty(CelsiusOf(milli)) * PwmPeriodNs
  {
    var d := TempToDuty(CelsiusOf(milli));
    DutyToNsInPeriod(d, d);
    DutyToNs(d)
  }

  /** A warmer reading never commands a shorter pulse. */
  lemma CommandedNsMonotone(m: int, n: int)
    requires m <= n
    ensures CommandedNs(m) <= CommandedNs(n)
  {
    var t, u := CelsiusOf(m), CelsiusOf(n);
    TempToDutyMonotone(t, u);
    DutyToNsInPeriod(TempToDuty(t), TempToDuty(u));
  }
}

=== FILE: fan_lifecycle.dfy ===
/** The fan controller's driver as a trace of hardware actions: one-time
    setup of the PWM channel, then one read-compute-write tick per sensor
    sample, and a cleanup that runs on every way out of the program.

    The environment the program meets is an input value: whether the
    channel is already exported, which sysfs writes fail, the sequence of
    sensor samples, and how the loop ends. The loop itself never ends on
    its own; it ends when the sensor cannot be read (an uncaught error) or
    when the user interrupts it during the sleep between ticks. */
module FanLifecycle {

  import opened Optional
  import opened FanController

  /** Pause after exporting the channel and after zeroing the duty. */
  const SettleMs: nat := 100

  /** Pause between two ticks. */
  const TickMs: nat := 2000

  /** The sysfs files of the PWM chip and channel that the program writes. */
  datatype PwmFile = Export | Period | Enable | DutyCycle | Unexport

  /** One observable step: a write attempt (with whether it succeeded), a
      successful temperature read, or a sleep. */
  datatype Action =
    | Write(file: PwmFile, value: int, ok: bool)
    | ReadTemp(milli: int)
    | Sleep(ms: nat)

  /** One tick's input: the sensor reading in millidegrees, and whether the
      duty-cycle write of that tick succeeds. */
  datatype Sample = Sample(milli: int, dutyWriteOk: bool)

  /** Everything outside the program that decides what a run does. The
      samples are the successful reads; after them the next read fails
      when `sensorFails` holds, and otherwise the user interrupts during
      the sleep that follows the last tick. */
  datatype Env = Env(
    alreadyExported: bool,
    setupFaults: set<PwmFile>,
    samples: seq<Sample>,
    sensorFails: bool,
    cleanupFaults: set<PwmFile>)

  /** How the program ends: interrupted by the user (exit status 0), setup
      failed (`exit(1)`), or the sensor read raised (uncaught error). */
  datatype Exit = Interrupted | SetupFailed | SensorFailed

  datatype Run = Run(trace: seq<Action>, exit: Exit)

  datatype SetupResult = SetupResult(trace: seq<Action>, ok: bool)

  predicate IsDisable(a: Action) {
    a.Write? && a.file == Enable && a.value == 0
  }

  predicate IsDutyWrite(a: Action) {
    a.Write? && a.file == DutyCycle
  }

  predicate FailedWrite(a: Action) {
    a.Write? && !a.ok
  }

  /** Where setup's period write sits: first when the channel already
      exists, otherwise after the export and its settle pause. */
  function PeriodAt(alreadyExported: bool): nat {
    if alreadyExported then 0 else 2
  }

  /** Setup: export the channel unless it already exists (then let it
      settle), write the period, enable the output. The first failing write
      ends setup with failure. */
  function Setup(alreadyExported: bool, faults: set<PwmFile>): (r: SetupResult)
    ensures r.ok <==> (alreadyExported || Export !in faults) && Period !in faults && Enable !in faults
    ensures forall i :: 0 <= i < |r.trace| ==>
              !IsDisable(r.trace[i]) && !IsDutyWrite(r.trace[i]) && !r.trace[i].ReadTemp?
    ensures 0 < |r.trace| <= PeriodAt(alreadyExported) + 2
    // the export is attempted first, and only when the channel does not exist yet
    ensures forall i :: 0 <= i < |r.trace| && r.trace[i].Write? ==>
              (r.trace[i].file == Export <==> i == 0 && !alreadyExported)
    ensures !alreadyExported ==> r.trace[0] == Write(Export, PwmChannel, Export !in faults)
    ensures !alreadyExported && |r.trace| > 1 ==> r.trace[1] == Sleep(SettleMs)
    // then the period, then the enable
    ensures |r.trace| > PeriodAt(alreadyExported) ==>
              r.trace[PeriodAt(alreadyExported)] == Write(Period, PwmPeriodNs, Period !in faults)
    ensures |r.trace| > PeriodAt(alreadyExported) + 1 ==>
              r.trace[PeriodAt(alreadyExported) + 1] == Write(Enable, 1, Enable !in faults)
    // a failed write is the last action, and only a failed write stops setup early
    ensures forall i :: 0 <= i < |r.trace| - 1 ==> !FailedWrite(r.trace[i])
    ensures |r.trace| < PeriodAt(alreadyExported) + 2 ==> FailedWrite(r.trace[|r.trace| - 1])
    ensures r.ok <==> !FailedWrite(r.trace[|r.trace| - 1])
  {
    var exportStep := if alreadyExported then [] else [Write(Export, PwmChannel, Export !in faults)];
    if !alreadyExported && Export in faults then SetupResult(exportStep, false)
    else
      var exported := exportStep + (if alreadyExported then [] else [Sleep(SettleMs)]);
      if Period in faults then
        SetupResult(exported + [Write(Period, PwmPeriodNs, false)], false)
      else if Enable in faults then
        SetupResult(exported + [Write(Period, PwmPeriodNs, true), Write(Enable, 1, false)], false)
      else
        SetupResult(exported + [Write(Period, PwmPeriodNs, true), Write(Enable, 1, true)], true)
  }

  /** One tick: read the sensor, write the duty computed from that reading
      (a failed write is only logged), sleep. */
  function Tick(s: Sample): seq<Action> {
    [ReadTemp(s.milli), Write(DutyCycle, CommandedNs(s.milli), s.dutyWriteOk), Sleep(TickMs)]
  }

  /** The ticks of the main loop, one per sample. */
  function Loop(samples: seq<Sample>): (tr: seq<Action>)
    ensures |tr| == 3 * |samples|
    decreases |samples|
  {
    if samples == [] then [] else Tick(samples[0]) + Loop(samples[1..])
  }

  /** There is no change detection and no skipping: tick `i` of the loop
      reads sample `i` and writes the duty computed from that reading. */
  lemma {:induction false} LoopTickAt(samples: seq<Sample>, i: nat)
    requires i < |samples|
    ensures Loop(samples)[3 * i] == ReadTemp(samples[i].milli)
    ensures Loop(samples)[3 * i + 1] == Write(DutyCycle, CommandedNs(samples[i].milli), samples[i].dutyWriteOk)
    ensures Loop(samples)[3 * i + 2] == Sleep(TickMs)
    decreases i
  {
    var rest := Loop(samples[1..]);
    assert Loop(samples) == Tick(samples[0]) + rest;
    if i > 0 {
      LoopTickAt(samples[1..], i - 1);
      assert samples[1..][i - 1] == samples[i];
      assert Loop(samples)[3 * i] == rest[3 * (i - 1)];
      assert Loop(samples)[3 * i + 1] == rest[3 * (i - 1) + 1];
      assert Loop(samples)[3 * i + 2] == rest[3 * (i - 1) + 2];
    }
  }

  /** Cleanup: write duty 0, let it settle, disable the output, unexport
      the channel. A failed duty write is only logged inside the duty
      setter; any other failed write abandons the rest of the cleanup. */
  function Cleanup(faults: set<PwmFile>): (c: seq<Action>)
    ensures |c| == 3 || |c| == 4
    ensures c[0] == Write(DutyCycle, 0, DutyCycle !in faults)
    ensures c[1] == Sleep(SettleMs)
    ensures IsDisable(c[2]) && c[2].ok == (Enable !in faults)
    ensures |c| == 4 <==> Enable !in faults
    ensures |c| == 4 ==> c[3] == Write(Unexport, PwmChannel, Unexport !in faults)
  {
    [Write(DutyCycle, DutyToNs(0), DutyCycle !in faults), Sleep(SettleMs), Write(Enable, 0, Enable !in faults)]
    + (if Enable in faults then [] else [Write(Unexport, PwmChannel, Unexport !in faults)])
  }

  /** A whole run: setup, then (if setup succeeded) the ticks, then the
      cleanup, whatever the way out. */
  function RunController(env: Env): (r: Run)
    ensures Frames(r.trace, Setup(env.alreadyExported, env.setupFaults).trace, Cleanup(env.cleanupFaults))
    ensures r.exit == SetupFailed <==> !Setup(env.alreadyExported, env.setupFaults).ok
    ensures r.exit == SensorFailed <==> Setup(env.alreadyExported, env.setupFaults).ok && env.sensorFails
    ensures r.exit == SetupFailed ==>
              && |r.trace| == |Setup(env.alreadyExported, env.setupFaults).trace| + |Cleanup(env.cleanupFaults)|
              && forall i :: 0 <= i < |r.trace| ==> !r.trace[i].ReadTemp?
    ensures Setup(env.alreadyExported, env.setupFaults).ok ==>
              && RunsEveryTick(r.trace, |Setup(env.alreadyExported, env.setupFaults).trace|, env.samples)
              && |r.trace| == |Setup(env.alreadyExported, env.setupFaults).trace| + 3 * |env.samples|
                              + |Cleanup(env.cleanupFaults)|
  {
    var setup := Setup(env.alreadyExported, env.setupFaults);
    var cleanup := Cleanup(env.cleanupFaults);
    if !setup.ok then
      var tr := setup.trace + cleanup;
      assert Frames(tr, setup.trace, cleanup) by {
        FramesOf(setup.trace, [], cleanup);
        assert setup.trace + [] + cleanup == tr;
      }
      assert forall i :: 0 <= i < |tr| ==> !tr[i].ReadTemp? by {
        NoReadOutsideLoop(setup.trace, env.cleanupFaults);
      }
      Run(tr, SetupFailed)
    else
      var tr := setup.trace + Loop(env.samples) + cleanup;
      assert Frames(tr, setup.trace, cleanup) by {
        FramesOf(setup.trace, Loop(env.samples), cleanup);
      }
      assert RunsEveryTick(tr, |setup.trace|, env.samples) by {
        LoopInRun(setup.trace, env.samples, cleanup);
      }
      Run(tr, if env.sensorFails then SensorFailed else Interrupted)
  }

  /** The trace begins with `first` and ends with `last`, which do not
      overlap. */
  predicate Frames(tr: seq<Action>, first: seq<Action>, last: seq<Action>) {
    |first| + |last| <= |tr| && tr[..|first|] == first && tr[|tr| - |last|..] == last
  }

  lemma FramesOf(first: seq<Action>, mid: seq<Action>, last: seq<Action>)
    ensures Frames(first + mid + last, first, last)
  {
    var tr := first + mid + last;
    assert tr[..|first|] == first;
    assert tr[|tr| - |last|..] == last;
  }

  /** Setup and cleanup never read the sensor. */
  lemma NoReadOutsideLoop(setup: seq<Action>, faults: set<PwmFile>)
    requires forall i :: 0 <= i < |setup| ==> !setup[i].ReadTemp?
    ensures forall i :: 0 <= i < |setup + Cleanup(faults)| ==> !(setup + Cleanup(faults))[i].ReadTemp?
  {
    var c := Cleanup(faults);
    assert forall i :: 0 <= i < |c| ==> !c[i].ReadTemp?;
  }

  /** From index `n` on, the trace holds one tick per sample, in order: read
      sample `i`, write the duty from that reading, sleep. */
  predicate RunsEveryTick(tr: seq<Action>, n: nat, samples: seq<Sample>) {
    && n + 3 * |samples| <= |tr|
    && forall i :: 0 <= i < |samples| ==>
         && tr[n + 3 * i] == ReadTemp(samples[i].milli)
         && tr[n + 3 * i + 1] == Write(DutyCycle, CommandedNs(samples[i].milli), samples[i].dutyWriteOk)
         && tr[n + 3 * i + 2] == Sleep(TickMs)
  }

  lemma LoopInRun(pre: seq<Action>, samples: seq<Sample>, post: seq<Action>)
    ensures RunsEveryTick(pre + Loop(samples) + post, |pre|, samples)
  {
    var tr := pre + Loop(samples) + post;
    forall i | 0 <= i < |samples|
      ensures && tr[|pre| + 3 * i] == ReadTemp(samples[i].milli)
              && tr[|pre| + 3 * i + 1] == Write(DutyCycle, CommandedNs(samples[i].milli), samples[i].dutyWriteOk)
              && tr[|pre| + 3 * i + 2] == Sleep(TickMs)
    {
      LoopTickAt(samples, i);
    }
  }

  // ---------------------------------------------------------------------
  // What the writes do to the hardware

  /** The observable state of the PWM channel. */
  datatype Hw = Hw(exported: bool, period: int, enabled: bool, duty: int)

  /** The effect of one action: a successful write updates the file it
      names; failed writes, reads and sleeps change nothing. */
  function Apply(h: Hw, a: Action): Hw {
    match a
    case Write(f, v, ok) =>
      if !ok then h
      else (
        match f
        case Export => h.(exported := true)
        case Period => h.(period := v)
        case Enable => h.(enabled := v == 1)
        case DutyCycle => h.(duty := v)
        case Unexport => h.(exported := false, enabled := false))
    case _ => h
  }

  /** The hardware state after a whole trace. */
  function Replay(h: Hw, tr: seq<Action>): Hw
    decreases |tr|
  {
    if tr == [] then h else Replay(Apply(h, tr[0]), tr[1..])
  }

  lemma {:induction false} ReplayAppend(h: Hw, a: seq<Action>, b: seq<Action>)
    ensures Replay(h, a + b) == Replay(Replay(h, a), b)
    decreases |a|
  {
    if a == [] {
      assert a + b == b;
    } else {
      assert (a + b)[0] == a[0];
      assert (a + b)[1..] == a[1..] + b;
      ReplayAppend(Apply(h, a[0]), a[1..], b);
    }
  }

  lemma ReplayThree(h: Hw, a: Action, b: Action, c: Action)
    ensures Replay(h, [a, b, c]) == Apply(Apply(Apply(h, a), b), c)
  {
    var h1 := Apply(h, a);
    var h2 := Apply(h1, b);
    assert [a, b, c][1..] == [b, c];
    assert [b, c][1..] == [c];
    assert [c][1..] == [];
    assert Replay(h2, [c]) == Apply(h2, c);
    assert Replay(h1, [b, c]) == Replay(h2, [c]);
  }

  lemma ReplayOne(h: Hw, a: Action)
    ensures Replay(h, [a]) == Apply(h, a)
  {
    assert [a][1..] == [];
  }

  /** The effect of the cleanup writes, alone and up to the unexport. */
  lemma ReplayCleanup(h: Hw, faults: set<PwmFile>)
    ensures var c := Cleanup(faults);
            var mid := Replay(h, c[..3]);
            var end := Replay(h, c);
            && (Enable !in faults ==> !mid.enabled)
            && (DutyCycle !in faults ==> end.duty == 0)
            && (Enable !in faults ==> !end.enabled)
            && (Enable !in faults && Unexport !in faults ==> !end.exported)
            && (Enable in faults ==> end == mid)
  {
    var c := Cleanup(faults);
    ReplayThree(h, c[0], c[1], c[2]);
    assert c[..3] == [c[0], c[1], c[2]];
    if Enable in faults {
      assert c == c[..3];
    } else {
      assert c == c[..3] + [c[3]];
      ReplayAppend(h, c[..3], [c[3]]);
      ReplayOne(Replay(h, c[..3]), c[3]);
    }
  }

  /** The value of the last duty-cycle write attempt in a trace. */
  function LastDutyValue(tr: seq<Action>): Option<int>
    decreases |tr|
  {
    if tr == [] then None
    else if IsDutyWrite(tr[|tr| - 1]) then Some(tr[|tr| - 1].value)
    else LastDutyValue(tr[..|tr| - 1])
  }

  lemma {:induction false} LastDutyValueAppend(a: seq<Action>, b: seq<Action>)
    ensures LastDutyValue(a + b) == if LastDutyValue(b).Some? then LastDutyValue(b) else LastDutyValue(a)
    decreases |b|
  {
    if b != [] {
      assert (a + b)[..|a + b| - 1] == a + b[..|b| - 1];
      LastDutyValueAppend(a, b[..|b| - 1]);
    } else {
      assert a + b == a;
    }
  }

  /** Every write that disables the output comes after a duty-cycle write
      of 0, with no other duty-cycle write in between. */
  ghost predicate DisablesOnlyAtZeroDuty(tr: seq<Action>) {
    forall k :: 0 <= k < |tr| && IsDisable(tr[k]) ==> LastDutyValue(tr[..k]) == Some(0)
  }

  /** Every unexport write finds the output already disabled. */
  ghost predicate UnexportsOnlyDisabled(h: Hw, tr: seq<Action>) {
    forall k :: 0 <= k < |tr| && tr[k].Write? && tr[k].file == Unexport ==> !Replay(h, tr[..k]).enabled
  }

  lemma LoopHasNoDisableOrUnexport(samples: seq<Sample>)
    ensures forall i :: 0 <= i < |Loop(samples)| ==>
              !IsDisable(Loop(samples)[i]) && !(Loop(samples)[i].Write? && Loop(samples)[i].file == Unexport)
  {
    var tr := Loop(samples);
    forall i | 0 <= i < |tr|
      ensures !IsDisable(tr[i]) && !(tr[i].Write? && tr[i].file == Unexport)
    {
      var j := i / 3;
      assert i == 3 * j || i == 3 * j + 1 || i == 3 * j + 2;
      assert 0 <= j < |samples|;
      LoopTickAt(samples, j);
    }
  }

  /** The part of a run before its cleanup. */
  function Prelude(env: Env): seq<Action> {
    var setup := Setup(env.alreadyExported, env.setupFaults);
    if setup.ok then setup.trace + Loop(env.samples) else setup.trace
  }

  lemma RunSplits(env: Env)
    ensures RunController(env).trace == Prelude(env) + Cleanup(env.cleanupFaults)
    ensures forall i :: 0 <= i < |Prelude(env)| ==>
              !IsDisable(Prelude(env)[i]) && !(Prelude(env)[i].Write? && Prelude(env)[i].file == Unexport)
  {
    var setup := Setup(env.alreadyExported, env.setupFaults);
    LoopHasNoDisableOrUnexport(env.samples);
    if setup.ok {
      var p := setup.trace + Loop(env.samples);
      forall i | 0 <= i < |p|
        ensures !IsDisable(p[i]) && !(p[i].Write? && p[i].file == Unexport)
      {
        if i >= |setup.trace| {
          assert p[i] == Loop(env.samples)[i - |setup.trace|];
        }
      }
    }
  }

  /** On every path out of the program the output is disabled only after
      the duty cycle was set to 0. */
  lemma RunDisablesOnlyAtZeroDuty(env: Env)
    ensures DisablesOnlyAtZeroDuty(RunController(env).trace)
  {
    RunSplits(env);
    CleanupDisablesOnlyAtZeroDuty(Prelude(env), env.cleanupFaults);
  }

  lemma CleanupDisablesOnlyAtZeroDuty(pre: seq<Action>, faults: set<PwmFile>)
    requires forall i :: 0 <= i < |pre| ==> !IsDisable(pre[i])
    ensures DisablesOnlyAtZeroDuty(pre + Cleanup(faults))
  {
    var tr := pre + Cleanup(faults);
    forall k | 0 <= k < |tr| && IsDisable(tr[k])
      ensures LastDutyValue(tr[..k]) == Some(0)
    {
      if k >= |pre| {
        DisableInCleanup(pre, faults, k);
      }
    }
  }

  /** On every path out of the program the channel is unexported only once
      the output is disabled. */
  lemma RunUnexportsOnlyDisabled(env: Env, h: Hw)
    ensures UnexportsOnlyDisabled(h, RunController(env).trace)
  {
    RunSplits(env);
    CleanupUnexportsOnlyDisabled(h, Prelude(env), env.cleanupFaults);
  }

  lemma CleanupUnexportsOnlyDisabled(h: Hw, pre: seq<Action>, faults: set<PwmFile>)
    requires forall i :: 0 <= i < |pre| ==> !(pre[i].Write? && pre[i].file == Unexport)
    ensures UnexportsOnlyDisabled(h, pre + Cleanup(faults))
  {
    var tr := pre + Cleanup(faults);
    forall k | 0 <= k < |tr| && tr[k].Write? && tr[k].file == Unexport
      ensures !Replay(h, tr[..k]).enabled
    {
      if k >= |pre| {
        UnexportInCleanup(h, pre, faults, k);
      }
    }
  }

  /** The cleanup's disable write comes right after its duty-0 write. */
  lemma DisableInCleanup(pre: seq<Action>, faults: set<PwmFile>, k: nat)
    requires |pre| <= k < |pre| + |Cleanup(faults)| && IsDisable((pre + Cleanup(faults))[k])
    ensures LastDutyValue((pre + Cleanup(faults))[..k]) == Some(0)
  {
    var c := Cleanup(faults);
    var tr := pre + c;
    assert tr[k] == c[k - |pre|];
    assert k == |pre| + 2;
    assert tr[..k] == pre + c[..2];
    LastDutyValueAppend(pre, c[..2]);
    assert c[..2][..1] == [c[0]];
  }

  /** The cleanup unexports only after its successful disable write. */
  lemma UnexportInCleanup(h: Hw, pre: seq<Action>, faults: set<PwmFile>, k: nat)
    requires |pre| <= k < |pre| + |Cleanup(faults)|
    requires (pre + Cleanup(faults))[k].Write? && (pre + Cleanup(faults))[k].file == Unexport
    ensures !Replay(h, (pre + Cleanup(faults))[..k]).enabled
  {
    var c := Cleanup(faults);
    var tr := pre + c;
    assert tr[k] == c[k - |pre|];
    assert k == |pre| + 3;
    assert tr[..k] == pre + c[..3];
    ReplayAppend(h, pre, c[..3]);
    ReplayCleanup(Replay(h, pre), faults);
  }

  /** The state the hardware is left in: duty 0 unless that write failed,
      the output disabled unless that write failed, and the channel
      unexported when the whole cleanup succeeded. */
  lemma RunLeavesFanStopped(env: Env, h: Hw)
    ensures var end := Replay(h, RunController(env).trace);
            && (DutyCycle !in env.cleanupFaults ==> end.duty == 0)
            && (Enable !in env.cleanupFaults ==> !end.enabled)
            && (Enable !in env.cleanupFaults && Unexport !in env.cleanupFaults ==> !end.exported)
  {
    var pre := Prelude(env);
    RunSplits(env);
    ReplayAppend(h, pre, Cleanup(env.cleanupFaults));
    ReplayCleanup(Replay(h, pre), env.cleanupFaults);
  }

  /** A successful setup leaves the channel exported, enabled, with the
      100 Hz period. */
  lemma SetupConfiguresChannel(h: Hw, faults: set<PwmFile>)
    requires Setup(h.exported, faults).ok
    ensures var end := Replay(h, Setup(h.exported, faults).trace);
            end.exported && end.enabled && end.period == PwmPeriodNs
  {
    var tr := Setup(h.exported, faults).trace;
    var p := Write(Period, PwmPeriodNs, true);
    var e := Write(Enable, 1, true);
    if h.exported {
      assert tr == [p, e];
      assert [p, e][1..] == [e];
      ReplayOne(Apply(h, p), e);
    } else {
      assert tr == [Write(Export, PwmChannel, true), Sleep(SettleMs), p] + [e];
      ReplayAppend(h, [Write(Export, PwmChannel, true), Sleep(SettleMs), p], [e]);
      ReplayThree(h, Write(Export, PwmChannel, true), Sleep(SettleMs), p);
      ReplayOne(Replay(h, [Write(Export, PwmChannel, true), Sleep(SettleMs), p]), e);
    }
  }

  /** Tick `i` leaves on the hardware the duty computed from its own
      reading when its write succeeds, and the previous tick's value when
      it fails: no tick is skipped and none is decided by earlier ones. */
  lemma TickAppliesItsReading(h: Hw, samples: seq<Sample>, i: nat)
    requires i < |samples|
    ensures var before := Replay(h, Loop(samples[..i]));
            var after := Replay(h, Loop(samples[..i + 1]));
            && (samples[i].dutyWriteOk ==> after.duty == CommandedNs(samples[i].milli))
            && (!samples[i].dutyWriteOk ==> after.duty == before.duty)
  {
    var s := samples[i];
    var pre := Loop(samples[..i]);
    var before := Replay(h, pre);
    LoopSnoc(samples[..i], s);
    assert samples[..i + 1] == samples[..i] + [s];
    assert Loop(samples[..i + 1]) == pre + Tick(s);
    ReplayAppend(h, pre, Tick(s));
    ReplayThree(before, ReadTemp(s.milli), Write(DutyCycle, CommandedNs(s.milli), s.dutyWriteOk), Sleep(TickMs));
  }

  lemma {:induction false} LoopSnoc(samples: seq<Sample>, s: Sample)
    ensures Loop(samples + [s]) == Loop(samples) + Tick(s)
    decreases |samples|
  {
    if samples == [] {
      assert [s][1..] == [];
    } else {
      assert (samples + [s])[1..] == samples[1..] + [s];
      LoopSnoc(samples[1..], s);
    }
  }
}

=== FILE: status_fan.dfy ===
/** The status server's fan figure: the duty cycle read back from the PWM
    files and turned into a percentage. The file system is an input: a map
    from the paths that exist to their contents. */
module FanStatus {

  import opened Optional
  import opened Text
  import FanController

  /** Where the duty value may be found, in order of preference: the two
      PWM chips' channel 0, then two hwmon fan outputs. */
  const DutyPaths: seq<string> := [
    "/sys/class/pwm/pwmchip0/pwm0/duty_cycle",
    "/sys/class/pwm/pwmchip1/pwm0/duty_cycle",
    "/sys/class/hwmon/hwmon0/pwm1",
    "/sys/class/hwmon/hwmon1/pwm1"
  ]

  /** Where the period may be found, in order of preference. */
  const PeriodPaths: seq<string> := [
    "/sys/class/pwm/pwmchip0/pwm0/period",
    "/sys/class/pwm/pwmchip1/pwm0/period"
  ]

  /** Full scale of an hwmon PWM value, used when no period is known. */
  const HwmonFullScale: int := 255

  /** The files that exist, with their contents. */
  type FileSystem = map<string, string>

  /** `paths[i]` is the first path in the list that exists. */
  predicate FirstAt(paths: seq<string>, fs: FileSystem, i: int) {
    0 <= i < |paths| && paths[i] in fs && forall j :: 0 <= j < i ==> paths[j] !in fs
  }

  /** The contents of the first path in the list that exists. */
  function FirstExisting(paths: seq<string>, fs: FileSystem): (r: Option<string>)
    ensures r.None? <==> forall i :: 0 <= i < |paths| ==> paths[i] !in fs
    ensures r.Some? ==> exists i :: FirstAt(paths, fs, i) && fs[paths[i]] == r.value
    decreases |paths|
  {
    if paths == [] then None
    else if paths[0] in fs then
      assert FirstAt(paths, fs, 0);
      Some(fs[paths[0]])
    else
      var r := FirstExisting(paths[1..], fs);
      assert forall i :: 1 <= i < |paths| ==> paths[1..][i - 1] == paths[i];
      if r.Some? then
        var k :| FirstAt(paths[1..], fs, k) && fs[paths[1..][k]] == r.value;
        FirstAtShift(paths, fs, k);
        r
      else
        r
  }

  /** A first existing path in the tail is one in the whole list when the
      head does not exist. */
  lemma FirstAtShift(paths: seq<string>, fs: FileSystem, k: int)
    requires paths != [] && paths[0] !in fs && FirstAt(paths[1..], fs, k)
    ensures FirstAt(paths, fs, k + 1) && paths[k + 1] == paths[1..][k]
  {
    assert forall j :: 1 <= j < k + 1 ==> paths[j] == paths[1..][j - 1];
  }

  /** What reading one of the lists gives: no file, an integer, or a file
      whose stripped contents are not an integer (Python raises). */
  datatype Reading = Absent | Value(n: int) | Garbled

  function ReadFirst(paths: seq<string>, fs: FileSystem): (r: Reading)
    ensures r.Absent? <==> forall i :: 0 <= i < |paths| ==> paths[i] !in fs
    ensures !r.Absent? ==> exists i :: FirstAt(paths, fs, i)
                              && (r.Garbled? <==> ParseInt(Strip(fs[paths[i]])).None?)
                              && (r.Value? ==> ParseInt(Strip(fs[paths[i]])) == Some(r.n))
  {
    match FirstExisting(paths, fs)
    case None => Absent
    case Some(text) =>
      match ParseInt(Strip(text))
      case Some(n) => Value(n)
      case None => Garbled
  }

  /** `NotFound` is the "PWM not found" answer; `Unreadable` is any raised
      error, reported with its message. */
  datatype FanError = NotFound | Unreadable

  /** The `fan` response: the exact percentage (before rounding to one
      decimal), the raw value read, the period when it was used, and the
      error when there is one. */
  datatype FanReport = FanReport(percent: real, pwmValue: int, period: Option<int>, error: Option<FanError>)

  /** `value` as a percentage of `scale`. */
  function Percent(value: int, scale: int): (pc: real)
    requires scale > 0
    ensures pc * scale as real == value as real * 100.0
  {
    var q := value as real / scale as real;
    assert q * scale as real == value as real;
    q * 100.0
  }

  const ErrorReport: FanReport := FanReport(0.0, 0, None, None)

  /** The response for the two readings: the percentage is duty over
      period when a positive period was read, duty over 255 when only the
      duty was read, and there is an error when a file was garbled or no
      duty file exists. */
  function Report(duty: Reading, period: Reading): (r: FanReport)
    ensures r.error.Some? ==> r.percent == 0.0 && r.pwmValue == 0 && r.period.None?
    ensures r.error == Some(Unreadable) <==> duty.Garbled? || period.Garbled?
    ensures r.error == Some(NotFound) <==> duty.Absent? && !period.Garbled?
    ensures r.error.None? ==> duty == Value(r.pwmValue)
    ensures r.error.None? && r.period.Some? ==>
              && period == Value(r.period.value)
              && r.period.value > 0
              && r.percent * r.period.value as real == r.pwmValue as real * 100.0
    ensures r.error.None? && r.period.None? ==>
              && !(period.Value? && period.n > 0)
              && r.percent * HwmonFullScale as real == r.pwmValue as real * 100.0
  {
    if duty.Garbled? || period.Garbled? then ErrorReport.(error := Some(Unreadable))
    else if duty.Value? && period.Value? && period.n > 0 then
      FanReport(Percent(duty.n, period.n), duty.n, Some(period.n), None)
    else if duty.Value? then
      FanReport(Percent(duty.n, HwmonFullScale), duty.n, None, None)
    else
      ErrorReport.(error := Some(NotFound))
  }

  /** The `fan` response: the first existing duty file is read, then the
      first existing period file, and the two readings are reported. */
  function GetFan(fs: FileSystem): (r: FanReport)
    ensures r.error == Some(NotFound) <==>
              (forall i :: 0 <= i < |DutyPaths| ==> DutyPaths[i] !in fs) && !ReadFirst(PeriodPaths, fs).Garbled?
    ensures r.error.None? ==> ReadFrom(DutyPaths, fs, r.pwmValue)
    ensures r.period.Some? ==> ReadFrom(PeriodPaths, fs, r.period.value) && r.period.value > 0
    ensures r.error.None? && r.period.None? ==> !ReadFirst(PeriodPaths, fs).Value? || ReadFirst(PeriodPaths, fs).n <= 0
    ensures r == Report(ReadFirst(DutyPaths, fs), ReadFirst(PeriodPaths, fs))
  {
    var duty := ReadFirst(DutyPaths, fs);
    var period := ReadFirst(PeriodPaths, fs);
    var r := Report(duty, period);
    assert duty.Absent? <==> forall i :: 0 <= i < |DutyPaths| ==> DutyPaths[i] !in fs;
    assert r.error.None? ==> ReadFrom(DutyPaths, fs, r.pwmValue) by {
      if r.error.None? {
        ValueReadFrom(DutyPaths, fs, r.pwmValue);
      }
    }
    assert r.period.Some? ==> ReadFrom(PeriodPaths, fs, r.period.value) by {
      if r.period.Some? {
        ValueReadFrom(PeriodPaths, fs, r.period.value);
      }
    }
    r
  }

  /** `n` is the integer in the first existing file of the list. */
  ghost predicate ReadFrom(paths: seq<string>, fs: FileSystem, n: int) {
    exists i :: FirstAt(paths, fs, i) && ParseInt(Strip(fs[paths[i]])) == Some(n)
  }

  lemma ValueReadFrom(paths: seq<string>, fs: FileSystem, n: int)
    requires ReadFirst(paths, fs) == Value(n)
    ensures ReadFrom(paths, fs, n)
  {
  }

  /** The files the controller leaves behind read back as the duty it
      commanded: after a write of a percentage `d` in 0..100 to channel 0
      of `pwmchip0` with the controller's period, the reported percentage
      is exactly `d`, whatever the other candidate files hold. */
  lemma ReportRecoversCommandedDuty(d: int, fs: FileSystem)
    requires 0 <= d <= 100
    requires DutyPaths[0] in fs && fs[DutyPaths[0]] == NatToString(FanController.DutyToNs(d))
    requires PeriodPaths[0] in fs && fs[PeriodPaths[0]] == NatToString(FanController.PwmPeriodNs)
    ensures GetFan(fs) == FanReport(d as real, FanController.DutyToNs(d), Some(FanController.PwmPeriodNs), None)
  {
    var ns := FanController.DutyToNs(d);
    var p := FanController.PwmPeriodNs;
    ReadsWritten(DutyPaths, fs, ns);
    ReadsWritten(PeriodPaths, fs, p);
    PercentOfCommanded(d);
  }

  /** A list whose first file holds a number written by `str` reads as
      that number. */
  lemma ReadsWritten(paths: seq<string>, fs: FileSystem, n: nat)
    requires |paths| > 0 && paths[0] in fs && fs[paths[0]] == NatToString(n)
    ensures ReadFirst(paths, fs) == Value(n)
  {
    assert FirstExisting(paths, fs) == Some(NatToString(n));
    StripDigits(NatToString(n));
    ParseNatToString(n);
  }

  /** The controller's nanosecond value for `d` percent, over its period,
      is `d` percent again. */
  lemma PercentOfCommanded(d: int)
    requires 0 <= d <= 100
    ensures Percent(FanController.DutyToNs(d), FanController.PwmPeriodNs) == d as real
  {
    var ns := FanController.DutyToNs(d);
    assert ns == d * 100000;
    var pc := Percent(ns, FanController.PwmPeriodNs);
    assert pc * 10000000.0 == (d * 100000) as real * 100.0;
  }

  lemma StripDigits(s: string)
    requires |s| > 0 && AllDigits(s)
    ensures Strip(s) == s
  {
    StripUnchanged(s);
  }
}

=== FILE: status_network.dfy ===
/** The status server's network figures: the byte counters of `wlan1` and
    `wlan0` taken from the lines of `/proc/net/dev`. Reading the file is
    outside the model; its lines are the input, or `None` when the file
    could not be read. */
module Network {

  import opened Optional
  import opened Text

  /** `/proc/net/dev` starts with two header lines. */
  const HeaderLines: nat := 2

  const Wlan1: string := "wlan1"
  const Wlan0: string := "wlan0"

  /** Field positions, after the interface name, of the received and
      transmitted byte counters. */
  const RxField: nat := 1
  const TxField: nat := 9

  /** One interface's record; `error` stands for the `error` key. The
      megabyte figures and the always-zero rates are left out. */
  datatype IfaceStats = IfaceStats(rxBytes: int, txBytes: int, error: bool)

  /** The record of an interface that is not in the file. */
  const NoTraffic: IfaceStats := IfaceStats(0, 0, false)

  /** The record of both interfaces when anything went wrong. */
  const Failed: IfaceStats := IfaceStats(0, 0, true)

  /** An interface line as parsed: the name and the two counters. */
  datatype DevEntry = DevEntry(name: string, rx: int, tx: int)

  /** The lines looked at are those mentioning either interface anywhere. */
  predicate Selected(line: string) {
    Contains(line, Wlan1) || Contains(line, Wlan0)
  }

  /** One selected line: the name is the first field without its trailing
      colons, the counters are fields 1 and 9. `None` stands for the error
      Python raises when a field is missing or not a number. */
  function ParseDevLine(line: string): (r: Option<DevEntry>)
    ensures r.Some? <==> |Split(line)| > TxField && ParseInt(Split(line)[RxField]).Some?
                           && ParseInt(Split(line)[TxField]).Some?
    ensures r.Some? ==> Some(r.value.rx) == ParseInt(Split(line)[RxField])
                          && Some(r.value.tx) == ParseInt(Split(line)[TxField])
    ensures r.Some? ==> r.value.name <= Split(line)[0]
    ensures r.Some? ==> r.value.name == [] || r.value.name[|r.value.name| - 1] != ':'
    ensures r.Some? ==> forall i :: |r.value.name| <= i < |Split(line)[0]| ==> Split(line)[0][i] == ':'
  {
    var parts := Split(line);
    if |parts| <= TxField then None
    else
      match (ParseInt(parts[RxField]), ParseInt(parts[TxField]))
      case (Some(rx), Some(tx)) => Some(DevEntry(RStripChar(parts[0], ':'), rx, tx))
      case _ => None
  }

  function NatStrings(ns: seq<nat>): (ws: seq<string>)
    ensures |ws| == |ns|
    ensures forall i :: 0 <= i < |ns| ==> ws[i] == NatToString(ns[i])
    ensures AllWords(ws)
  {
    seq(|ns|, i requires 0 <= i < |ns| => NatToString(ns[i]))
  }

  /** A line whose whitespace-separated fields are the interface name with
      a colon and then the counters, however the columns are padded; the
      kernel prints `/proc/net/dev` lines in this shape. */
  predicate KernelLine(line: string, name: string, counters: seq<nat>) {
    Split(line) == [name + ":"] + NatStrings(counters)
  }

  /** The same fields single-spaced. */
  function DevLine(name: string, counters: seq<nat>): string {
    JoinSpaced([name + ":"] + NatStrings(counters))
  }

  lemma RStripOneColon(name: string)
    requires name != [] && name[|name| - 1] != ':'
    ensures RStripChar(name + ":", ':') == name
  {
    assert (name + ":")[..|name|] == name;
  }

  lemma NameWithColon(name: string)
    requires IsWord(name)
    ensures IsWord(name + ":")
  {
    assert forall i :: 0 <= i < |name| ==> (name + ":")[i] == name[i];
  }

  /** The single-spaced line, and the same line with any padding before
      it, are in the kernel's shape. */
  lemma DevLineIsKernelLine(pad: string, name: string, counters: seq<nat>)
    requires IsWord(name)
    requires forall i :: 0 <= i < |pad| ==> IsSpace(pad[i])
    ensures KernelLine(pad + DevLine(name, counters), name, counters)
  {
    NameWithColon(name);
    SplitJoinSpaced([name + ":"] + NatStrings(counters));
    SplitAfterSpaces(pad, DevLine(name, counters));
  }

  /** A line in the kernel's shape reads back as its name, its first
      counter (received bytes) and its ninth (transmitted bytes). */
  lemma ParseDevLineOfKernelLine(line: string, name: string, counters: seq<nat>)
    requires IsWord(name) && name[|name| - 1] != ':'
    requires |counters| >= TxField
    requires KernelLine(line, name, counters)
    ensures ParseDevLine(line) == Some(DevEntry(name, counters[0], counters[TxField - 1]))
  {
    ParseNatToString(counters[0]);
    ParseNatToString(counters[TxField - 1]);
    RStripOneColon(name);
  }

  /** The interfaces found so far, by name, folded over the lines in order;
      `None` when a selected line does not parse. */
  function Collect(acc: map<string, IfaceStats>, lines: seq<string>): Option<map<string, IfaceStats>>
    decreases |lines|
  {
    if lines == [] then Some(acc)
    else if !Selected(lines[0]) then Collect(acc, lines[1..])
    else
      match ParseDevLine(lines[0])
      case None => None
      case Some(e) => Collect(acc[e.name := IfaceStats(e.rx, e.tx, false)], lines[1..])
  }

  /** The effect of one more line: an unselected line changes nothing, a
      selected line that does not parse fails the whole collection, and a
      selected line that parses overrides any earlier line of the same
      interface. */
  lemma {:induction false} CollectSnoc(acc: map<string, IfaceStats>, lines: seq<string>, l: string)
    ensures Collect(acc, lines + [l]) ==
              match Collect(acc, lines)
              case None => None
              case Some(m) =>
                if !Selected(l) then Some(m)
                else match ParseDevLine(l)
                  case None => None
                  case Some(e) => Some(m[e.name := IfaceStats(e.rx, e.tx, false)])
    decreases |lines|
  {
    if lines == [] {
      assert [l][1..] == [];
    } else {
      assert (lines + [l])[0] == lines[0];
      assert (lines + [l])[1..] == lines[1..] + [l];
      if Selected(lines[0]) && ParseDevLine(lines[0]).Some? {
        var e := ParseDevLine(lines[0]).value;
        CollectSnoc(acc[e.name := IfaceStats(e.rx, e.tx, false)], lines[1..], l);
      } else {
        CollectSnoc(acc, lines[1..], l);
      }
    }
  }

  /** A selected line that does not parse anywhere fails the collection. */
  lemma {:induction false} CollectFailsOnBadLine(acc: map<string, IfaceStats>, lines: seq<string>, i: nat)
    requires i < |lines| && Selected(lines[i]) && ParseDevLine(lines[i]).None?
    ensures Collect(acc, lines) == None
    decreases |lines|
  {
    if i > 0 {
      assert lines[1..][i - 1] == lines[i];
      if Selected(lines[0]) && ParseDevLine(lines[0]).Some? {
        var e := ParseDevLine(lines[0]).value;
        CollectFailsOnBadLine(acc[e.name := IfaceStats(e.rx, e.tx, false)], lines[1..], i - 1);
      } else {
        CollectFailsOnBadLine(acc, lines[1..], i - 1);
      }
    }
  }

  /** A name the lines do not supply keeps its accumulated record, or stays
      absent. */
  lemma {:induction false} CollectKeepsUnnamed(acc: map<string, IfaceStats>, lines: seq<string>, k: string)
    requires forall i :: 0 <= i < |lines| && Selected(lines[i]) && ParseDevLine(lines[i]).Some? ==>
               ParseDevLine(lines[i]).value.name != k
    requires Collect(acc, lines).Some?
    ensures k in Collect(acc, lines).value <==> k in acc
    ensures k in acc ==> Collect(acc, lines).value[k] == acc[k]
    decreases |lines|
  {
    if lines != [] {
      assert forall i :: 1 <= i < |lines| ==> lines[1..][i - 1] == lines[i];
      if Selected(lines[0]) && ParseDevLine(lines[0]).Some? {
        var e := ParseDevLine(lines[0]).value;
        CollectKeepsUnnamed(acc[e.name := IfaceStats(e.rx, e.tx, false)], lines[1..], k);
      } else {
        CollectKeepsUnnamed(acc, lines[1..], k);
      }
    }
  }

  function Lookup(m: map<string, IfaceStats>, k: string): IfaceStats {
    if k in m then m[k] else NoTraffic
  }

  /** Some line after the header is selected and does not parse: the
      error that fails the whole response. */
  predicate BadLineAfterHeader(lines: seq<string>) {
    exists i :: HeaderLines <= i < |lines| && Selected(lines[i]) && ParseDevLine(lines[i]).None?
  }

  /** The `network` response: always exactly the two interfaces, an absent
      one with the all-zero record, and both marked as failed exactly when
      the file cannot be read or a selected line does not parse. */
  function GetNetwork(file: Option<seq<string>>): (r: map<string, IfaceStats>)
    ensures r.Keys == {Wlan1, Wlan0}
    ensures file.None? ==> r[Wlan1] == Failed && r[Wlan0] == Failed
    ensures file.Some? ==> (r[Wlan1].error <==> BadLineAfterHeader(file.value))
    ensures file.Some? && |file.value| <= HeaderLines ==> r[Wlan1] == NoTraffic && r[Wlan0] == NoTraffic
    ensures r[Wlan1].error <==> r[Wlan0].error
    ensures r[Wlan1].error ==> r[Wlan1] == Failed && r[Wlan0] == Failed
  {
    match file
    case None => map[Wlan1 := Failed, Wlan0 := Failed]
    case Some(lines) =>
      BodyFailsExactlyOnBadLine(lines);
      match Collect(map[], Slice(lines, HeaderLines, HeaderLines + |lines|))
      case None => map[Wlan1 := Failed, Wlan0 := Failed]
      case Some(m) =>
        assert forall k :: k in m ==> !m[k].error by {
          CollectNeverFails(map[], Slice(lines, HeaderLines, HeaderLines + |lines|));
        }
        map[Wlan1 := Lookup(m, Wlan1), Wlan0 := Lookup(m, Wlan0)]
  }

  /** The lines after the header fail to collect exactly when one of them
      is selected and does not parse. */
  lemma BodyFailsExactlyOnBadLine(lines: seq<string>)
    ensures Collect(map[], Slice(lines, HeaderLines, HeaderLines + |lines|)).None? <==> BadLineAfterHeader(lines)
  {
    var body := Slice(lines, HeaderLines, HeaderLines + |lines|);
    assert forall j :: 0 <= j < |body| ==> body[j] == lines[j + HeaderLines];
    if BadLineAfterHeader(lines) {
      var i :| HeaderLines <= i < |lines| && Selected(lines[i]) && ParseDevLine(lines[i]).None?;
      CollectFailsOnBadLine(map[], body, i - HeaderLines);
    } else {
      CollectSucceeds(map[], body);
    }
  }

  lemma {:induction false} CollectNeverFails(acc: map<string, IfaceStats>, lines: seq<string>)
    requires forall k :: k in acc ==> !acc[k].error
    ensures Collect(acc, lines).Some? ==> forall k :: k in Collect(acc, lines).value ==> !Collect(acc, lines).value[k].error
    decreases |lines|
  {
    if lines != [] {
      if Selected(lines[0]) && ParseDevLine(lines[0]).Some? {
        var e := ParseDevLine(lines[0]).value;
        CollectNeverFails(acc[e.name := IfaceStats(e.rx, e.tx, false)], lines[1..]);
      } else {
        CollectNeverFails(acc, lines[1..]);
      }
    }
  }

  /** The two header lines are never looked at, whatever they contain. */
  lemma HeaderIgnored(h: seq<string>, g: seq<string>, rest: seq<string>)
    requires |h| == HeaderLines && |g| == HeaderLines
    ensures GetNetwork(Some(h + rest)) == GetNetwork(Some(g + rest))
  {
    assert (h + rest)[HeaderLines..] == rest;
    assert (g + rest)[HeaderLines..] == rest;
  }

  /** An interface no line after the header names gets the all-zero record
      with no error, unless a selected line fails to parse, which fails the
      whole response. */
  lemma AbsentInterfaceDefaults(lines: seq<string>, k: string)
    requires k == Wlan1 || k == Wlan0
    requires forall i :: HeaderLines <= i < |lines| && Selected(lines[i]) && ParseDevLine(lines[i]).Some? ==>
               ParseDevLine(lines[i]).value.name != k
    ensures GetNetwork(Some(lines))[k] == if BadLineAfterHeader(lines) then Failed else NoTraffic
  {
    var body := Slice(lines, HeaderLines, HeaderLines + |lines|);
    if Collect(map[], body).Some? {
      forall i | 0 <= i < |body| && Selected(body[i]) && ParseDevLine(body[i]).Some?
        ensures ParseDevLine(body[i]).value.name != k
      {
        assert body[i] == lines[i + HeaderLines];
      }
      CollectKeepsUnnamed(map[], body, k);
    }
  }

  /** A selected line after the header that does not parse fails both
      records. */
  lemma BadLineFailsBoth(lines: seq<string>, i: nat)
    requires HeaderLines <= i < |lines| && Selected(lines[i]) && ParseDevLine(lines[i]).None?
    ensures GetNetwork(Some(lines)) == map[Wlan1 := Failed, Wlan0 := Failed]
  {
    var body := Slice(lines, HeaderLines, HeaderLines + |lines|);
    assert body[i - HeaderLines] == lines[i];
    CollectFailsOnBadLine(map[], body, i - HeaderLines);
  }

  /** When every selected line parses, the collection succeeds. */
  lemma {:induction false} CollectSucceeds(acc: map<string, IfaceStats>, lines: seq<string>)
    requires forall j :: 0 <= j < |lines| && Selected(lines[j]) ==> ParseDevLine(lines[j]).Some?
    ensures Collect(acc, lines).Some?
    decreases |lines|
  {
    if lines != [] {
      assert forall j :: 1 <= j < |lines| ==> lines[1..][j - 1] == lines[j];
      if Selected(lines[0]) {
        var e := ParseDevLine(lines[0]).value;
        CollectSucceeds(acc[e.name := IfaceStats(e.rx, e.tx, false)], lines[1..]);
      } else {
        CollectSucceeds(acc, lines[1..]);
      }
    }
  }

  /** The last selected line that parses to a name decides that name's
      record: its counters, with no error. */
  lemma {:induction false} CollectLastEntry(acc: map<string, IfaceStats>, lines: seq<string>, i: nat, e: DevEntry)
    requires i < |lines| && Selected(lines[i]) && ParseDevLine(lines[i]) == Some(e)
    requires forall j :: i < j < |lines| && Selected(lines[j]) && ParseDevLine(lines[j]).Some? ==>
               ParseDevLine(lines[j]).value.name != e.name
    requires Collect(acc, lines).Some?
    ensures e.name in Collect(acc, lines).value
    ensures Collect(acc, lines).value[e.name] == IfaceStats(e.rx, e.tx, false)
    decreases |lines|
  {
    var tail := lines[1..];
    var acc' := if Selected(lines[0]) && ParseDevLine(lines[0]).Some?
                then acc[ParseDevLine(lines[0]).value.name := IfaceStats(ParseDevLine(lines[0]).value.rx, ParseDevLine(lines[0]).value.tx, false)]
                else acc;
    assert Collect(acc, lines) == Collect(acc', tail);
    forall j | i <= j < |tail| && Selected(tail[j]) && ParseDevLine(tail[j]).Some?
      ensures ParseDevLine(tail[j]).value.name != e.name
    {
      assert tail[j] == lines[j + 1];
    }
    if i == 0 {
      CollectKeepsUnnamed(acc', tail, e.name);
    } else {
      assert tail[i - 1] == lines[i];
      CollectLastEntry(acc', tail, i - 1, e);
    }
  }

  /** A present interface is reported with its line's counters: line `i`
      after the header is selected and parses to `wlan1` or `wlan0`, no
      later selected line parses to the same name, and no selected line
      after the header fails to parse. Other interfaces' lines may come
      anywhere. */
  lemma PresentInterfaceReported(lines: seq<string>, i: nat)
    requires HeaderLines <= i < |lines| && Selected(lines[i]) && ParseDevLine(lines[i]).Some?
    requires ParseDevLine(lines[i]).value.name == Wlan1 || ParseDevLine(lines[i]).value.name == Wlan0
    requires forall j :: i < j < |lines| && Selected(lines[j]) && ParseDevLine(lines[j]).Some? ==>
               ParseDevLine(lines[j]).value.name != ParseDevLine(lines[i]).value.name
    requires forall j :: HeaderLines <= j < |lines| && Selected(lines[j]) ==> ParseDevLine(lines[j]).Some?
    ensures var e := ParseDevLine(lines[i]).value;
            GetNetwork(Some(lines))[e.name] == IfaceStats(e.rx, e.tx, false)
  {
    var e := ParseDevLine(lines[i]).value;
    var body := Slice(lines, HeaderLines, HeaderLines + |lines|);
    assert body == lines[HeaderLines..];
    assert forall j :: 0 <= j < |body| ==> body[j] == lines[j + HeaderLines];
    CollectSucceeds(map[], body);
    CollectLastEntry(map[], body, i - HeaderLines, e);
  }

  /** End to end for a kernel-shaped line at any position: its interface
      is reported with the line's received and transmitted byte counters. */
  lemma KernelLineReported(lines: seq<string>, i: nat, name: string, counters: seq<nat>)
    requires name == Wlan1 || name == Wlan0
    requires HeaderLines <= i < |lines| && |counters| >= TxField
    requires KernelLine(lines[i], name, counters)
    requires forall j :: i < j < |lines| && Selected(lines[j]) && ParseDevLine(lines[j]).Some? ==>
               ParseDevLine(lines[j]).value.name != name
    requires forall j :: HeaderLines <= j < |lines| && Selected(lines[j]) ==> ParseDevLine(lines[j]).Some?
    ensures GetNetwork(Some(lines))[name] == IfaceStats(counters[0], counters[TxField - 1], false)
  {
    InterfaceNames();
    KernelLineSelected(lines[i], name, counters);
    ParseDevLineOfKernelLine(lines[i], name, counters);
    PresentInterfaceReported(lines, i);
  }

  /** The two interface names are words that do not end in a colon. */
  lemma InterfaceNames()
    ensures IsWord(Wlan1) && Wlan1[|Wlan1| - 1] != ':'
    ensures IsWord(Wlan0) && Wlan0[|Wlan0| - 1] != ':'
  {
  }

  /** A line whose first field starts with an interface name is selected. */
  lemma KernelLineSelected(line: string, name: string, counters: seq<nat>)
    requires name == Wlan1 || name == Wlan0
    requires KernelLine(line, name, counters)
    ensures Selected(line)
  {
    assert name <= Split(line)[0];
    FirstWordPrefixOccurs(line, name);
  }

  /** Two selected lines that parse, one per interface, after the header
      give the report of exactly those two entries. */
  lemma ReportsTwoLines(h1: string, h2: string, l1: string, l0: string, s1: IfaceStats, s0: IfaceStats)
    requires Selected(l1) && ParseDevLine(l1) == Some(DevEntry(Wlan1, s1.rxBytes, s1.txBytes))
    requires Selected(l0) && ParseDevLine(l0) == Some(DevEntry(Wlan0, s0.rxBytes, s0.txBytes))
    requires !s1.error && !s0.error
    ensures GetNetwork(Some([h1, h2, l1, l0])) == map[Wlan1 := s1, Wlan0 := s0]
  {
    var lines := [h1, h2, l1, l0];
    var m1 := map[Wlan1 := s1];
    var m := m1[Wlan0 := s0];
    assert Collect(map[], [l1, l0]) == Some(m) by {
      assert Collect(m1, [l0]) == Some(m) by {
        assert [l0][1..] == [];
      }
      assert [l1, l0][1..] == [l0];
    }
    assert Slice(lines, HeaderLines, HeaderLines + |lines|) == [l1, l0];
    assert GetNetwork(Some(lines)) == map[Wlan1 := Lookup(m, Wlan1), Wlan0 := Lookup(m, Wlan0)];
    assert Lookup(m, Wlan1) == s1 && Lookup(m, Wlan0) == s0 by {
      assert Wlan1[4] != Wlan0[4];
    }
  }

  /** End to end: a file with the two header lines and one kernel-shaped
      line per interface reports each interface's received and transmitted
      byte counters. */
  lemma ReportsBothInterfaces(h1: string, h2: string, l1: string, l0: string, c1: seq<nat>, c0: seq<nat>)
    requires |c1| >= TxField && |c0| >= TxField
    requires KernelLine(l1, Wlan1, c1) && KernelLine(l0, Wlan0, c0)
    ensures GetNetwork(Some([h1, h2, l1, l0]))
              == map[Wlan1 := IfaceStats(c1[0], c1[TxField - 1], false),
                     Wlan0 := IfaceStats(c0[0], c0[TxField - 1], false)]
  {
    var s1 := IfaceStats(c1[0], c1[TxField - 1], false);
    var s0 := IfaceStats(c0[0], c0[TxField - 1], false);
    assert Selected(l1) && ParseDevLine(l1) == Some(DevEntry(Wlan1, s1.rxBytes, s1.txBytes)) by {
      InterfaceNames();
      KernelLineSelected(l1, Wlan1, c1);
      ParseDevLineOfKernelLine(l1, Wlan1, c1);
    }
    assert Selected(l0) && ParseDevLine(l0) == Some(DevEntry(Wlan0, s0.rxBytes, s0.txBytes)) by {
      InterfaceNames();
      KernelLineSelected(l0, Wlan0, c0);
      ParseDevLineOfKernelLine(l0, Wlan0, c0);
    }
    ReportsTwoLines(h1, h2, l1, l0, s1, s0);
  }
}

=== FILE: status_routing.dfy ===
/** The status server's request routing: the path component of the request
    target, as `urllib.parse.urlparse` extracts it, selects one of the JSON
    endpoints, the combined endpoint, or static file serving. */
module Routing {

  import opened Optional

  // ---------------------------------------------------------------------
  // Searching a string for a character
  // ---------------------------------------------------------------------

  /** The index of the first `c` in `s`, or `|s|` when there is none. */
  function IndexOf(s: string, c: char): (i: nat)
    ensures i <= |s|
    ensures c !in s[..i]
    ensures i < |s| ==> s[i] == c
    decreases |s|
  {
    if s == [] then 0
    else if s[0] == c then 0
    else
      var j := IndexOf(s[1..], c);
      assert s[..j + 1] == [s[0]] + s[1..][..j];
      j + 1
  }

  /** Everything before the first `c`: the first piece of
      `s.split(c, 1)`. */
  function Before(s: string, c: char): (t: string)
    ensures t <= s && c !in t
    ensures |t| < |s| ==> s[|t|] == c
  {
    s[..IndexOf(s, c)]
  }

  /** The index of the last `c` in `s`. */
  function LastIndexOf(s: string, c: char): (r: Option<nat>)
    ensures r.None? <==> c !in s
    ensures r.Some? ==> r.value < |s| && s[r.value] == c && c !in s[r.value + 1..]
    decreases |s|
  {
    if s == [] then None
    else if s[|s| - 1] == c then Some(|s| - 1)
    else
      var r := LastIndexOf(s[..|s| - 1], c);
      assert s == s[..|s| - 1] + [s[|s| - 1]];
      if r.Some? then
        assert s[r.value + 1..] == s[..|s| - 1][r.value + 1..] + [s[|s| - 1]];
        r
      else
        r
  }

  // ---------------------------------------------------------------------
  // urlparse
  // ---------------------------------------------------------------------

  predicate IsAsciiLetter(c: char) {
    'a' <= c <= 'z' || 'A' <= c <= 'Z'
  }

  /** The characters a URL scheme may consist of. */
  predicate IsSchemeChar(c: char) {
    IsAsciiLetter(c) || '0' <= c <= '9' || c == '+' || c == '-' || c == '.'
  }

  predicate AllSchemeChars(s: string) {
    s == [] || (IsSchemeChar(s[0]) && AllSchemeChars(s[1..]))
  }

  function AsciiLower(s: string): (t: string)
    ensures |t| == |s|
  {
    seq(|s|, i requires 0 <= i < |s| => if 'A' <= s[i] <= 'Z' then (s[i] as int + 32) as char else s[i])
  }

  /** The schemes whose last path segment may carry `;parameters`; the
      empty scheme is one of them. */
  const UsesParams: set<string> := {
    "", "ftp", "hdl", "prospero", "http", "imap", "https", "shttp", "rtsp",
    "rtsps", "rtspu", "sip", "sips", "mms", "sftp", "tel"
  }

  /** The scheme (lower-cased) and the rest of the URL: there is a scheme
      when the text before the first `:` is non-empty, starts with a
      letter and consists of scheme characters. */
  function SplitScheme(url: string): (r: (string, string))
    ensures r.0 == "" ==> r.1 == url
    ensures |r.1| <= |url| && r.1 == url[|url| - |r.1|..]
    ensures r.0 != "" ==> |url| == |r.0| + 1 + |r.1| && IsAsciiLetter(url[0]) && url[|r.0|] == ':'
  {
    var i := IndexOf(url, ':');
    if 0 < i < |url| && IsAsciiLetter(url[0]) && AllSchemeChars(url[..i]) then
      (AsciiLower(url[..i]), url[i + 1..])
    else
      ("", url)
  }

  predicate StartsNetloc(url: string) {
    |url| >= 2 && url[0] == '/' && url[1] == '/'
  }

  /** After a leading `//`, the network location runs to the first `/`,
      `?` or `#`; the rest is returned. */
  function DropNetloc(url: string): (rest: string)
    ensures |rest| <= |url|
    ensures !StartsNetloc(url) ==> rest == url
    ensures StartsNetloc(url) ==> exists j :: 2 <= j <= |url| && rest == url[j..]
  {
    if StartsNetloc(url) then
      var tail := url[2..];
      var delim := Min3(IndexOf(tail, '/'), IndexOf(tail, '?'), IndexOf(tail, '#'));
      assert tail[delim..] == url[2 + delim..];
      tail[delim..]
    else
      url
  }

  function Min3(a: nat, b: nat, c: nat): (m: nat)
    ensures m <= a && m <= b && m <= c
    ensures m == a || m == b || m == c
  {
    if a <= b && a <= c then a else if b <= c then b else c
  }

  /** `;parameters` are cut off the last path segment only: the cut is at
      the first `;` after the last `/`, or at the first `;` when there is
      no `/`. */
  function DropParams(url: string): (path: string)
    ensures path <= url
    ensures ';' !in url ==> path == url
  {
    if ';' !in url then url
    else
      match LastIndexOf(url, '/')
      case None => Before(url, ';')
      case Some(j) => url[..j] + Before(url[j..], ';')
  }

  /** The `path` attribute of `urlparse(target)`: the scheme and network
      location are dropped, the fragment and then the query are cut off,
      and for the schemes that use them the parameters of the last
      segment. */
  function UrlPath(target: string): (path: string)
    ensures '?' !in path && '#' !in path
    ensures exists i :: 0 <= i <= |target| && path <= target[i..]
    ensures |target| > 0 && target[0] == '/' && !StartsNetloc(target) ==> path <= target
  {
    var (scheme, rest) := SplitScheme(target);
    var url := Before(Before(DropNetloc(rest), '#'), '?');
    var path := if scheme in UsesParams then DropParams(url) else url;
    UrlPathShape(target, rest, url, path);
    path
  }

  lemma UrlPathShape(target: string, rest: string, url: string, path: string)
    requires |rest| <= |target| && rest == target[|target| - |rest|..]
    requires |target| > 0 && target[0] == '/' ==> rest == target
    requires url == Before(Before(DropNetloc(rest), '#'), '?')
    requires path <= url
    ensures '?' !in path && '#' !in path
    ensures exists i :: 0 <= i <= |target| && path <= target[i..]
    ensures |target| > 0 && target[0] == '/' && !StartsNetloc(target) ==> path <= target
  {
    var tail := DropNetloc(rest);
    var noFragment := Before(tail, '#');
    NotInPrefix(url, noFragment, '#');
    NotInPrefix(path, url, '?');
    NotInPrefix(path, url, '#');
    var j :| 0 <= j <= |rest| && tail == rest[j..];
    assert tail == target[|target| - |rest| + j..];
  }

  lemma NotInPrefix(a: string, b: string, c: char)
    requires a <= b && c !in b
    ensures c !in a
  {
  }

  /** `u` is the target up to its first `?` or `#`. */
  predicate UpToQuery(target: string, u: string) {
    && u <= target && '?' !in u && '#' !in u
    && (|u| < |target| ==> target[|u|] == '?' || target[|u|] == '#')
  }

  /** `p` is `u` with the parameters of its last segment cut off: `p` is a
      prefix of `u` whose own last segment has no `;`, and what is cut off
      starts with `;` and holds no `/`. */
  predicate LastSegmentParamsCut(u: string, p: string) {
    && p <= u
    && (';' !in u ==> p == u)
    && (|p| < |u| ==> u[|p|] == ';' && '/' !in u[|p|..])
    && forall i :: 0 <= i < |p| && p[i] == ';' ==> '/' in p[i..]
  }

  /** The path of an origin-form target (one that starts with a single
      `/`, as a request line carries it): the target up to its first `?`
      or `#`, with the parameters of its last segment cut off. */
  lemma UrlPathOfOrigin(target: string)
    requires |target| > 0 && target[0] == '/' && !StartsNetloc(target)
    ensures var u := Before(Before(target, '#'), '?');
            UpToQuery(target, u) && LastSegmentParamsCut(u, UrlPath(target))
  {
    NoScheme(target);
    var v := Before(target, '#');
    var u := Before(v, '?');
    NotInPrefix(u, v, '#');
    assert |u| < |target| ==> target[|u|] == '?' || target[|u|] == '#' by {
      if |u| < |v| {
        assert target[|u|] == v[|u|];
      }
    }
    assert "" in UsesParams;
    DropParamsShape(u);
  }

  lemma DropParamsShape(u: string)
    ensures LastSegmentParamsCut(u, DropParams(u))
  {
    var p := DropParams(u);
    if ';' in u {
      match LastIndexOf(u, '/')
      case None =>
        assert p == Before(u, ';');
        assert forall i :: 0 <= i < |p| ==> p[i] == u[i];
      case Some(j) =>
        var b := Before(u[j..], ';');
        assert p == u[..j] + b;
        assert |b| > 0 && b[0] == '/' by {
          assert u[j..][0] == '/';
        }
        forall i | 0 <= i < |p| && p[i] == ';'
          ensures '/' in p[i..]
        {
          if i < j {
            assert p[j] == b[0];
            assert p[i..][j - i] == '/';
          }
        }
        if |p| < |u| {
          assert u[|p|] == u[j..][|b|];
          assert u[|p|..] == u[j + 1..][|p| - j - 1..];
        }
    }
  }

  // ---------------------------------------------------------------------
  // Routing
  // ---------------------------------------------------------------------

  /** The six JSON sections. */
  datatype Section = CpuTemp | CpuFreq | Ram | NetworkStats | TaskList | FanSpeed

  /** What a GET request is answered with: one section, the combined
      document, or static file serving of the raw target. */
  datatype Response = Single(section: Section) | Combined(sections: map<string, Section>) | Static(target: string)

  /** The keys of the combined `/api/all` document. */
  const AllSections: map<string, Section> := map[
    "cpu_temp" := CpuTemp,
    "cpu_freq" := CpuFreq,
    "ram" := Ram,
    "network" := NetworkStats,
    "tasks" := TaskList,
    "fan" := FanSpeed
  ]

  /** The API table: each path and what it answers. */
  const ApiTable: map<string, Response> := map[
    "/api/cpu_temp" := Single(CpuTemp),
    "/api/cpu_freq" := Single(CpuFreq),
    "/api/ram" := Single(Ram),
    "/api/network" := Single(NetworkStats),
    "/api/tasks" := Single(TaskList),
    "/api/fan" := Single(FanSpeed),
    "/api/all" := Combined(AllSections)
  ]

  /** The handler's chain of path comparisons agrees with the API table,
      and every other request falls through to static serving of the
      unparsed target. */
  function Route(target: string): (r: Response)
    ensures UrlPath(target) in ApiTable ==> r == ApiTable[UrlPath(target)]
    ensures UrlPath(target) !in ApiTable ==> r == Static(target)
  {
    Dispatch(UrlPath(target), target)
  }

  function Dispatch(path: string, target: string): (r: Response)
    ensures path in ApiTable ==> r == ApiTable[path]
    ensures path !in ApiTable ==> r == Static(target)
  {
    if path == "/api/cpu_temp" then Single(CpuTemp)
    else if path == "/api/cpu_freq" then Single(CpuFreq)
    else if path == "/api/ram" then Single(Ram)
    else if path == "/api/network" then Single(NetworkStats)
    else if path == "/api/tasks" then Single(TaskList)
    else if path == "/api/fan" then Single(FanSpeed)
    else if path == "/api/all" then Combined(AllSections)
    else Static(target)
  }

  /** The combined document has exactly the six section keys. */
  lemma AllHasSixKeys()
    ensures AllSections.Keys == {"cpu_temp", "cpu_freq", "ram", "network", "tasks", "fan"}
    ensures |AllSections.Keys| == 6
  {
    assert AllSections.Keys == {"cpu_temp", "cpu_freq", "ram", "network", "tasks", "fan"};
    assert "cpu_temp"[4] != "cpu_freq"[4];
  }

  /** Each key of the combined document names a different section, and
      every section is among them. */
  lemma AllSectionsOnce()
    ensures forall s: Section :: s in AllSections.Values
    ensures forall k :: k in AllSections ==> Key(AllSections[k]) == k
  {
    forall s: Section
      ensures s in AllSections.Values
    {
      assert AllSections[Key(s)] == s;
    }
  }

  /** A plain absolute path: starts with one `/` and has no character
      that `urlparse` treats as a delimiter. */
  predicate PlainPath(p: string) {
    |p| >= 1 && p[0] == '/' && (|p| == 1 || p[1] != '/')
    && '?' !in p && '#' !in p && ';' !in p && ':' !in p
  }

  /** A plain path is its own URL path, and a query or fragment after it
      does not change it. */
  lemma PlainPathKept(p: string, suffix: string)
    requires PlainPath(p)
    requires suffix == [] || suffix[0] == '?' || suffix[0] == '#'
    ensures UrlPath(p + suffix) == p
  {
    var url := p + suffix;
    assert |url| >= 2 ==> url[1] != '/' by {
      if |p| == 1 && |url| >= 2 {
        assert url[1] == suffix[0];
      }
    }
    Relative(url);
    CutsOfPlain(p, suffix);
    assert "" in UsesParams;
  }

  /** A target starting with a single `/` has neither scheme nor network
      location. */
  lemma Relative(url: string)
    requires |url| >= 1 && url[0] == '/' && (|url| >= 2 ==> url[1] != '/')
    ensures SplitScheme(url) == ("", url) && DropNetloc(url) == url
  {
    NoScheme(url);
    assert !StartsNetloc(url);
  }

  lemma NoScheme(url: string)
    requires |url| >= 1 && !IsAsciiLetter(url[0])
    ensures SplitScheme(url) == ("", url)
  {
  }

  /** Cutting off the fragment and then the query leaves a plain path
      that the suffix starts a query or fragment after. */
  lemma CutsOfPlain(p: string, suffix: string)
    requires PlainPath(p)
    requires suffix == [] || suffix[0] == '?' || suffix[0] == '#'
    ensures Before(Before(p + suffix, '#'), '?') == p
  {
    BeforeAfterPlain(p, suffix, '#');
    var u1 := Before(p + suffix, '#');
    var rest := u1[|p|..];
    assert u1 == p + rest;
    assert rest == [] || rest[0] == '?' by {
      if suffix != [] && suffix[0] == '?' && rest != [] {
        assert rest[0] == (p + suffix)[|p|];
      }
    }
    BeforeAfterPlain(p, rest, '?');
  }

  /** Cutting at `c` after a prefix without `c`, where the suffix is empty
      or starts with `c`, gives the prefix back; the prefix survives any
      cut. */
  lemma BeforeAfterPlain(p: string, suffix: string, c: char)
    requires c !in p
    ensures p <= Before(p + suffix, c)
    ensures suffix == [] || suffix[0] == c ==> Before(p + suffix, c) == p
  {
    assert (p + suffix)[..|p|] == p;
  }

  /** The key of each section in the combined document. */
  function Key(s: Section): (k: string)
    ensures k in AllSections && AllSections[k] == s
  {
    match s
    case CpuTemp => "cpu_temp"
    case CpuFreq => "cpu_freq"
    case Ram => "ram"
    case NetworkStats => "network"
    case TaskList => "tasks"
    case FanSpeed => "fan"
  }

  /** Each section is served alone at `/api/` followed by its key in the
      combined document, also when the request carries a query. */
  lemma SectionsServedAtTheirKeys(s: Section, query: string)
    ensures Route(ApiPath(s)) == Single(s)
    ensures Route(ApiPath(s) + "?" + query) == Single(s)
  {
    var p := ApiPath(s);
    KeyPath(s);
    UrlPathOfPlain(p, query);
    RoutedByTable(p, p);
    RoutedByTable(p + "?" + query, p);
  }

  /** A plain path is its own URL path, with or without a query. */
  lemma UrlPathOfPlain(p: string, query: string)
    requires PlainPath(p)
    ensures UrlPath(p) == p
    ensures UrlPath(p + "?" + query) == p
  {
    PlainPathAlone(p);
    PlainPathQuery(p, query);
  }

  lemma PlainPathAlone(p: string)
    requires PlainPath(p)
    ensures UrlPath(p) == p
  {
    PlainPathKept(p, []);
    assert p + [] == p;
  }

  lemma PlainPathQuery(p: string, query: string)
    requires PlainPath(p)
    ensures UrlPath(p + "?" + query) == p
  {
    var suffix := "?" + query;
    assert p + "?" + query == p + suffix;
    PlainPathKept(p, suffix);
  }

  /** A target whose path is in the API table is answered from the table. */
  lemma RoutedByTable(target: string, p: string)
    requires UrlPath(target) == p && p in ApiTable
    ensures Route(target) == ApiTable[p]
  {
  }

  /** Where a section is served on its own. */
  function ApiPath(s: Section): string {
    "/api/" + Key(s)
  }

  /** The API path of a section is plain and the table serves the
      section there. */
  lemma KeyPath(s: Section)
    ensures PlainPath(ApiPath(s))
    ensures ApiPath(s) in ApiTable && ApiTable[ApiPath(s)] == Single(s)
  {
    KeyLetters(s);
    PlainApiPath(Key(s));
    KeyInTable(s);
  }

  /** Section keys are lower-case letters and underscores. */
  predicate KeyChars(k: string) {
    forall i :: 0 <= i < |k| ==> 'a' <= k[i] <= 'z' || k[i] == '_'
  }

  lemma KeyLetters(s: Section)
    ensures KeyChars(Key(s))
  {
  }

  lemma PlainApiPath(k: string)
    requires KeyChars(k)
    ensures PlainPath("/api/" + k)
  {
    var p := "/api/" + k;
    forall i | 0 <= i < |p|
      ensures p[i] != '?' && p[i] != '#' && p[i] != ';' && p[i] != ':'
    {
      if i >= 5 {
        assert p[i] == k[i - 5];
      }
    }
  }

  lemma KeyInTable(s: Section)
    ensures "/api/" + Key(s) in ApiTable && ApiTable["/api/" + Key(s)] == Single(s)
  {
    match s
    case CpuTemp => assert "/api/" + Key(s) == "/api/cpu_temp";
    case CpuFreq => assert "/api/" + Key(s) == "/api/cpu_freq";
    case Ram => assert "/api/" + Key(s) == "/api/ram";
    case NetworkStats => assert "/api/" + Key(s) == "/api/network";
    case TaskList => assert "/api/" + Key(s) == "/api/tasks";
    case FanSpeed => assert "/api/" + Key(s) == "/api/fan";
  }

  /** `;parameters` after the last segment of a plain path are dropped
      too, so `/api/fan;x` is still the fan endpoint. */
  lemma ParamsDropped(p: string, params: string)
    requires PlainPath(p)
    requires '/' !in params && '?' !in params && '#' !in params
    ensures UrlPath(p + ";" + params) == p
  {
    var url := p + ";" + params;
    assert url == p + (";" + params);
    assert url[0] == '/' && !IsAsciiLetter(url[0]);
    assert SplitScheme(url) == ("", url);
    assert |url| >= 2 ==> url[1] != '/';
    assert DropNetloc(url) == url;
    assert '#' !in url && '?' !in url;
    NoCut(url, '#');
    NoCut(url, '?');
    ParamsCut(p, params);
  }

  lemma ParamsCut(p: string, params: string)
    requires PlainPath(p)
    requires '/' !in params
    ensures DropParams(p + ";" + params) == p
  {
    var rest := ";" + params;
    assert p + ";" + params == p + rest;
    ParamsCutAt(p, rest);
  }

  lemma ParamsCutAt(p: string, rest: string)
    requires |p| > 0 && p[0] == '/' && ';' !in p
    requires |rest| > 0 && rest[0] == ';' && '/' !in rest
    ensures DropParams(p + rest) == p
  {
    var url := p + rest;
    var k := LastSlashInPrefix(p, rest);
    assert ';' in url by {
      assert url[|p|] == ';';
    }
    DropParamsAt(url, k);
    CutInLastSegment(p, rest, k);
  }

  lemma CutInLastSegment(p: string, rest: string, k: nat)
    requires k < |p| && ';' !in p
    requires |rest| > 0 && rest[0] == ';'
    ensures (p + rest)[..k] + Before((p + rest)[k..], ';') == p
  {
    var url := p + rest;
    assert Before(url[k..], ';') == p[k..] by {
      assert url[k..] == p[k..] + rest;
      BeforeAfterPlain(p[k..], rest, ';');
    }
    assert url[..k] == p[..k];
    assert p[..k] + p[k..] == p;
  }

  lemma DropParamsAt(url: string, k: nat)
    requires ';' in url && LastIndexOf(url, '/') == Some(k)
    ensures DropParams(url) == url[..k] + Before(url[k..], ';')
  {
  }

  /** When the suffix has no `/`, the last `/` of the whole string lies in
      the prefix. */
  lemma LastSlashInPrefix(p: string, rest: string) returns (k: nat)
    requires |p| > 0 && p[0] == '/' && '/' !in rest
    ensures LastIndexOf(p + rest, '/') == Some(k) && k < |p|
  {
    var url := p + rest;
    assert url[0] == '/';
    k := LastIndexOf(url, '/').value;
  }

  lemma NoCut(s: string, c: char)
    requires c !in s
    ensures Before(s, c) == s
  {
  }

  /** Any plain path outside the API table is served as a static file. */
  lemma OtherPathsAreStatic(p: string)
    requires PlainPath(p) && p !in ApiTable
    ensures Route(p) == Static(p)
  {
    PlainPathKept(p, []);
    assert p + [] == p;
  }
}

=== FILE: status_tasks.dfy ===
/** The status server's process list: the text printed by
    `ps aux --sort=-pcpu` turned into at most 15 task records. Running the
    command is outside the model; its standard output is the input, or
    `None` when the command could not be run. */
module Tasks {

  import opened Optional
  import opened Text

  /** At most this many process lines are looked at, after the header. */
  const MaxTasks: nat := 15

  /** Commands are cut to this many characters. */
  const MaxCommandLength: nat := 50

  /** A process line is split at most this many times ... */
  const PsSplits: nat := 10

  /** ... so a complete line has this many fields, the last being the
      command with its arguments. */
  const PsFields: nat := PsSplits + 1

  /** One reported process; the fields stay text, as `ps` printed them. */
  datatype Task = Task(pid: string, cpu: string, mem: string, command: string)

  /** The `tasks` response; `failed` stands for the `error` key. */
  datatype TasksReport = TasksReport(tasks: seq<Task>, failed: bool)

  /** One `ps aux` line: kept when it has all eleven fields, with the pid,
      CPU and memory columns and the command cut to 50 characters. The
      command is the line from the start of its eleventh field to the end,
      arguments and their spacing included. */
  function ParseTask(line: string): (r: Option<Task>)
    ensures r.None? <==> |Split(line)| < PsFields
    ensures r.Some? ==>
              && r.value.pid == Split(line)[1]
              && r.value.cpu == Split(line)[2]
              && r.value.mem == Split(line)[3]
              && |r.value.command| <= MaxCommandLength
              && Take(Split(line)[PsSplits], MaxCommandLength) <= r.value.command
    ensures r.Some? ==> exists j :: 0 < j && RestAt(line, PsSplits, j)
                                     && r.value.command == Take(line[j..], MaxCommandLength)
  {
    var parts := SplitMax(line, PsSplits);
    SplitMaxWords(line, PsSplits);
    if |parts| >= PsFields then
      var words := Split(line);
      assert parts[..PsSplits][1] == words[..PsSplits][1];
      assert parts[..PsSplits][2] == words[..PsSplits][2];
      assert parts[..PsSplits][3] == words[..PsSplits][3];
      TakePrefix(words[PsSplits], parts[PsSplits], MaxCommandLength);
      CommandStart(line);
      Some(Task(parts[1], parts[2], parts[3], Take(parts[PsSplits], MaxCommandLength)))
    else
      None
  }

  lemma CommandStart(line: string)
    requires |SplitMax(line, PsSplits)| == PsFields
    ensures exists j :: 0 < j && RestAt(line, PsSplits, j) && SplitMax(line, PsSplits)[PsSplits] == line[j..]
  {
    SplitMaxRest(line, PsSplits);
    var j :| RestAt(line, PsSplits, j) && SplitMax(line, PsSplits)[PsSplits] == line[j..];
    assert j != 0 by {
      assert line[..0] == [];
    }
  }

  lemma TakePrefix(a: string, b: string, n: nat)
    requires a <= b
    ensures Take(a, n) <= Take(b, n)
  {
  }

  /** The task a canonical line of fields yields. */
  function RowTask(fields: seq<string>): Task
    requires |fields| >= PsFields
  {
    Task(fields[1], fields[2], fields[3], Take(JoinSpaced(fields[PsSplits..]), MaxCommandLength))
  }

  /** A process line printed as single-spaced fields reads back as those
      fields, with everything from the eleventh field on as the command. */
  lemma ParseTaskOfRow(fields: seq<string>)
    requires |fields| >= PsFields && AllWords(fields)
    ensures ParseTask(JoinSpaced(fields)) == Some(RowTask(fields))
  {
    SplitMaxJoinSpaced(fields, PsSplits);
    SplitJoinSpaced(fields);
  }

  /** The tasks of the lines that parse, in order. */
  function KeepTasks(lines: seq<string>): (tasks: seq<Task>)
    ensures |tasks| <= |lines|
    decreases |lines|
  {
    if lines == [] then []
    else
      match ParseTask(lines[0])
      case Some(t) => [t] + KeepTasks(lines[1..])
      case None => KeepTasks(lines[1..])
  }

  /** Keeping tasks respects concatenation: no line influences another
      line's task, and the order of lines is the order of tasks. */
  lemma {:induction false} KeepTasksAppend(a: seq<string>, b: seq<string>)
    ensures KeepTasks(a + b) == KeepTasks(a) + KeepTasks(b)
    decreases |a|
  {
    if a == [] {
      assert a + b == b;
    } else {
      assert (a + b)[0] == a[0];
      assert (a + b)[1..] == a[1..] + b;
      KeepTasksAppend(a[1..], b);
    }
  }

  /** Every task comes from a line, and every complete line gives one. */
  lemma {:induction false} KeepTasksMembers(lines: seq<string>)
    ensures forall t :: t in KeepTasks(lines) ==>
              exists i :: 0 <= i < |lines| && ParseTask(lines[i]) == Some(t)
    ensures forall i :: 0 <= i < |lines| && ParseTask(lines[i]).Some? ==>
              ParseTask(lines[i]).value in KeepTasks(lines)
    decreases |lines|
  {
    if lines != [] {
      KeepTasksMembers(lines[1..]);
      forall t | t in KeepTasks(lines)
        ensures exists i :: 0 <= i < |lines| && ParseTask(lines[i]) == Some(t)
      {
        if ParseTask(lines[0]) != Some(t) {
          assert t in KeepTasks(lines[1..]);
          var j :| 0 <= j < |lines[1..]| && ParseTask(lines[1..][j]) == Some(t);
          assert lines[j + 1] == lines[1..][j];
        }
      }
      forall i | 0 <= i < |lines| && ParseTask(lines[i]).Some?
        ensures ParseTask(lines[i]).value in KeepTasks(lines)
      {
        if i > 0 {
          assert lines[i] == lines[1..][i - 1];
        }
      }
    }
  }

  /** The lines `ps` printed: output stripped, split at line breaks. */
  function Lines(stdout: string): (lines: seq<string>)
    ensures |lines| >= 1
  {
    SplitOn(Strip(stdout), '\n')
  }

  /** The process lines looked at: the header is skipped and at most 15
      lines follow it. */
  function Window(lines: seq<string>): (w: seq<string>)
    ensures |w| <= MaxTasks
    ensures |lines| >= 1 ==> w == lines[1..][..Min(|lines| - 1, MaxTasks)]
  {
    Slice(lines, 1, 1 + MaxTasks)
  }

  /** The `tasks` response: the tasks of lines 1 to 15 of the output, and
      only those. */
  function GetTasks(stdout: Option<string>): (r: TasksReport)
    ensures stdout.None? ==> r == TasksReport([], true)
    ensures stdout.Some? ==> !r.failed
    ensures |r.tasks| <= MaxTasks
    ensures stdout.Some? ==> forall t :: t in r.tasks ==>
              exists i :: InWindow(Lines(stdout.value), i) && ParseTask(Lines(stdout.value)[i]) == Some(t)
    ensures stdout.Some? ==> forall i :: InWindow(Lines(stdout.value), i) && ParseTask(Lines(stdout.value)[i]).Some? ==>
              ParseTask(Lines(stdout.value)[i]).value in r.tasks
  {
    match stdout
    case None => TasksReport([], true)
    case Some(out) =>
      var lines := Lines(out);
      var w := Window(lines);
      KeepTasksMembers(w);
      assert forall j :: 0 <= j < |w| ==> w[j] == lines[j + 1];
      assert forall i :: InWindow(lines, i) ==> lines[i] == w[i - 1];
      TasksReport(KeepTasks(w), false)
  }

  /** Line `i` is one of the process lines looked at. */
  predicate InWindow(lines: seq<string>, i: int) {
    1 <= i <= MaxTasks && i < |lines|
  }

  /** Tasks keep the order of their lines. */
  lemma KeepTasksOrder(lines: seq<string>, i: nat, i': nat, t: Task, t': Task)
    requires i < i' < |lines|
    requires ParseTask(lines[i]) == Some(t) && ParseTask(lines[i']) == Some(t')
    ensures exists p, p' :: 0 <= p < p' < |KeepTasks(lines)|
              && KeepTasks(lines)[p] == t && KeepTasks(lines)[p'] == t'
  {
    var a, b := lines[..i'], lines[i'..];
    assert lines == a + b;
    KeepTasksAppend(a, b);
    KeepTasksMembers(a);
    assert a[i] == lines[i];
    var ka := KeepTasks(a);
    var p :| 0 <= p < |ka| && ka[p] == t;
    assert b[0] == lines[i'];
    assert KeepTasks(b)[0] == t';
    assert KeepTasks(lines)[p] == ka[p];
    assert KeepTasks(lines)[|ka|] == KeepTasks(b)[0];
  }

  /** The response lists the processes in the order `ps` printed them. */
  lemma GetTasksInOrder(stdout: string, i: nat, i': nat)
    requires i < i' && InWindow(Lines(stdout), i) && InWindow(Lines(stdout), i')
    requires ParseTask(Lines(stdout)[i]).Some? && ParseTask(Lines(stdout)[i']).Some?
    ensures var tasks := GetTasks(Some(stdout)).tasks;
            exists p, p' :: 0 <= p < p' < |tasks|
              && tasks[p] == ParseTask(Lines(stdout)[i]).value
              && tasks[p'] == ParseTask(Lines(stdout)[i']).value
  {
    WindowInOrder(Lines(stdout), i, i');
    assert GetTasks(Some(stdout)).tasks == KeepTasks(Window(Lines(stdout)));
  }

  lemma WindowInOrder(lines: seq<string>, i: nat, i': nat)
    requires i < i' && InWindow(lines, i) && InWindow(lines, i')
    requires ParseTask(lines[i]).Some? && ParseTask(lines[i']).Some?
    ensures var tasks := KeepTasks(Window(lines));
            exists p, p' :: 0 <= p < p' < |tasks|
              && tasks[p] == ParseTask(lines[i]).value
              && tasks[p'] == ParseTask(lines[i']).value
  {
    var w := Window(lines);
    var t, t' := ParseTask(lines[i]).value, ParseTask(lines[i']).value;
    assert w[i - 1] == lines[i] && w[i' - 1] == lines[i'];
    KeepTasksOrder(w, i - 1, i' - 1, t, t');
  }

  /** A listing of single-spaced lines: a header line and one line per
      process. `ps` itself pads its columns; for such lines `ParseTask`'s
      contract gives the fields and the command. */
  function Listing(header: seq<string>, rows: seq<seq<string>>): string {
    JoinOn([JoinSpaced(header)] + RowLines(rows), '\n')
  }

  function RowLines(rows: seq<seq<string>>): (lines: seq<string>)
    ensures |lines| == |rows|
    ensures forall i :: 0 <= i < |rows| ==> lines[i] == JoinSpaced(rows[i])
  {
    seq(|rows|, i requires 0 <= i < |rows| => JoinSpaced(rows[i]))
  }

  predicate WellFormedRows(rows: seq<seq<string>>) {
    forall i :: 0 <= i < |rows| ==> |rows[i]| >= PsFields && AllWords(rows[i])
  }

  lemma {:induction false} KeepTasksOfRows(rows: seq<seq<string>>)
    requires WellFormedRows(rows)
    ensures KeepTasks(RowLines(rows)) == seq(|rows|, i requires 0 <= i < |rows| => RowTask(rows[i]))
    decreases |rows|
  {
    if rows != [] {
      ParseTaskOfRow(rows[0]);
      assert RowLines(rows)[1..] == RowLines(rows[1..]);
      KeepTasksOfRows(rows[1..]);
    }
  }

  /** A line `ps` prints: non-empty, without a line break, and neither
      beginning nor ending with whitespace. */
  predicate CleanLine(line: string) {
    |line| > 0 && '\n' !in line && !IsSpace(line[0]) && !IsSpace(line[|line| - 1])
  }

  lemma RowLineShape(ws: seq<string>)
    requires ws != [] && AllWords(ws)
    ensures CleanLine(JoinSpaced(ws))
  {
    JoinSpacedShape(ws);
    var last := ws[|ws| - 1];
    assert IsWord(last) && IsWord(ws[0]);
    assert IsSpace('\n');
  }

  /** Clean lines joined at line breaks are read back as those lines. */
  lemma CleanLinesRead(lines: seq<string>)
    requires |lines| >= 1
    requires forall i :: 0 <= i < |lines| ==> CleanLine(lines[i])
    ensures Lines(JoinOn(lines, '\n')) == lines
  {
    JoinOnEnds(lines, '\n');
    StripUnchanged(JoinOn(lines, '\n'));
    SplitOnJoinOn(lines, '\n');
  }

  /** The lines of a listing are its header line and its process lines. */
  lemma ListingLines(header: seq<string>, rows: seq<seq<string>>)
    requires header != [] && AllWords(header)
    requires WellFormedRows(rows)
    ensures Lines(Listing(header, rows)) == [JoinSpaced(header)] + RowLines(rows)
  {
    var lines := [JoinSpaced(header)] + RowLines(rows);
    ListingLinesClean(header, rows, lines);
    CleanLinesRead(lines);
  }

  lemma ListingLinesClean(header: seq<string>, rows: seq<seq<string>>, lines: seq<string>)
    requires header != [] && AllWords(header)
    requires WellFormedRows(rows)
    requires lines == [JoinSpaced(header)] + RowLines(rows)
    ensures forall i :: 0 <= i < |lines| ==> CleanLine(lines[i])
  {
    forall i | 0 <= i < |lines|
      ensures CleanLine(lines[i])
    {
      if i == 0 {
        RowLineShape(header);
      } else {
        var ws := rows[i - 1];
        assert lines[i] == JoinSpaced(ws);
        RowLineShape(ws);
      }
    }
  }

  /** End to end: the response to a listing with a header and well-formed
      process lines holds the first 15 processes, in order, each with its
      pid, CPU, memory and its command cut to 50 characters. */
  lemma TasksOfListing(header: seq<string>, rows: seq<seq<string>>)
    requires header != [] && AllWords(header)
    requires WellFormedRows(rows)
    ensures var n := Min(|rows|, MaxTasks);
            GetTasks(Some(Listing(header, rows)))
              == TasksReport(seq(n, i requires 0 <= i < n => RowTask(rows[i])), false)
  {
    var lines := [JoinSpaced(header)] + RowLines(rows);
    ListingLines(header, rows);
    var n := Min(|rows|, MaxTasks);
    var firstRows := rows[..n];
    assert Window(lines) == RowLines(firstRows) by {
      assert lines[1..] == RowLines(rows);
    }
    assert WellFormedRows(firstRows) by {
      assert forall i :: 0 <= i < n ==> firstRows[i] == rows[i];
    }
    KeepTasksOfRows(firstRows);
  }
}

=== FILE: text.dfy ===
/** The usual Some/None datatype, used for parses that can fail and for
    values that may be absent. */
module Optional {

  datatype Option<+T> = None | Some(value: T)
}

/** The pieces of Python's `str` behaviour the status server relies on:
    `isspace`, `split()`, `split(None, n)`, `split('\n')`, `strip()`,
    `rstrip(c)`, the substring test `in`, slicing `[:n]` and `int()` on a
    decimal string. Strings are sequences of Unicode scalar values, as
    Python strings are sequences of code points. */
module Text {

  import opened Optional

  /** Python's `str.isspace` for one character: the ASCII separators
      9..13 and 28..31, the space, and the Unicode space characters. */
  predicate IsSpace(c: char) {
    var n := c as int;
    || n == 32 || 9 <= n <= 13 || 28 <= n <= 31
    || n == 0x85 || n == 0xA0 || n == 0x1680
    || 0x2000 <= n <= 0x200A || n == 0x2028 || n == 0x2029
    || n == 0x202F || n == 0x205F || n == 0x3000
  }

  /** A word as `split()` yields it: non-empty, free of whitespace. */
  predicate IsWord(w: string) {
    |w| > 0 && forall i :: 0 <= i < |w| ==> !IsSpace(w[i])
  }

  predicate AllWords(ws: seq<string>) {
    forall i :: 0 <= i < |ws| ==> IsWord(ws[i])
  }

  function Min(a: int, b: int): int {
    if a <= b then a else b
  }

  /** Drops leading whitespace. */
  function SkipSpace(s: string): (t: string)
    ensures |t| <= |s|
    ensures t == [] || !IsSpace(t[0])
    ensures forall i :: 0 <= i < |s| - |t| ==> IsSpace(s[i])
  {
    if s != [] && IsSpace(s[0]) then SkipSpace(s[1..]) else s
  }

  /** Length of the leading run of non-whitespace characters. */
  function WordLen(s: string): (k: nat)
    ensures k <= |s|
    ensures forall i :: 0 <= i < k ==> !IsSpace(s[i])
    ensures k == |s| || IsSpace(s[k])
  {
    if s == [] || IsSpace(s[0]) then 0 else 1 + WordLen(s[1..])
  }

  /** Python's `s.split()`: the maximal runs of non-whitespace, in order. */
  function Split(s: string): (words: seq<string>)
    ensures AllWords(words)
    decreases |s|
  {
    var t := SkipSpace(s);
    if t == [] then []
    else
      var k := WordLen(t);
      [t[..k]] + Split(t[k..])
  }

  /** Python's `s.split(None, n)`: at most `n` splits. Once `n` splits have
      been made, the remainder is one piece with its leading whitespace
      dropped and its trailing whitespace kept. */
  function SplitMax(s: string, n: nat): (parts: seq<string>)
    ensures |parts| <= n + 1
    ensures |parts| == n + 1 ==> |parts[n]| > 0 && !IsSpace(parts[n][0])
    decreases |s|
  {
    var t := SkipSpace(s);
    if t == [] then []
    else if n == 0 then [t]
    else
      var k := WordLen(t);
      [t[..k]] + SplitMax(t[k..], n - 1)
  }

  /** Words joined by single spaces: the canonical line `Split` reads back. */
  function JoinSpaced(ws: seq<string>): string {
    if ws == [] then []
    else if |ws| == 1 then ws[0]
    else ws[0] + " " + JoinSpaced(ws[1..])
  }

  lemma SkipSpaceSuffix(s: string)
    ensures SkipSpace(s) == s[|s| - |SkipSpace(s)|..]
  {
  }

  lemma SkipSpaceNoop(s: string)
    requires s == [] || !IsSpace(s[0])
    ensures SkipSpace(s) == s
  {
  }

  lemma WordLenOfWordThen(w: string, rest: string)
    requires IsWord(w)
    requires rest == [] || IsSpace(rest[0])
    ensures WordLen(w + rest) == |w|
  {
    assert forall i :: 0 <= i < |w| ==> (w + rest)[i] == w[i];
    if rest != [] {
      assert (w + rest)[|w|] == rest[0];
    }
  }

  /** A word followed by nothing or by whitespace is split off first. */
  lemma SplitOfWordThen(w: string, rest: string)
    requires IsWord(w)
    requires rest == [] || IsSpace(rest[0])
    ensures Split(w + rest) == [w] + Split(rest)
  {
    var s := w + rest;
    SkipSpaceNoop(s);
    WordLenOfWordThen(w, rest);
    assert s[..|w|] == w;
    assert s[|w|..] == rest;
  }

  /** Leading whitespace never changes the split. */
  lemma SplitAfterSpace(c: char, s: string)
    requires IsSpace(c)
    ensures Split([c] + s) == Split(s)
  {
    assert ([c] + s)[1..] == s;
  }

  lemma SplitJoinSpacedStep(w: string, ws: seq<string>)
    requires IsWord(w) && ws != []
    ensures Split(JoinSpaced([w] + ws)) == [w] + Split(JoinSpaced(ws))
  {
    var rest := " " + JoinSpaced(ws);
    assert ([w] + ws)[1..] == ws;
    assert JoinSpaced([w] + ws) == w + rest;
    SplitOfWordThen(w, rest);
    SplitAfterSpace(' ', JoinSpaced(ws));
  }

  /** `split()` reads back the words that `JoinSpaced` wrote. */
  lemma {:induction false} SplitJoinSpaced(ws: seq<string>)
    requires AllWords(ws)
    ensures Split(JoinSpaced(ws)) == ws
    decreases |ws|
  {
    if ws == [] {
    } else if |ws| == 1 {
      SplitOfWordThen(ws[0], []);
      assert ws[0] + [] == ws[0];
    } else {
      SplitJoinSpacedStep(ws[0], ws[1..]);
      SplitJoinSpaced(ws[1..]);
      assert ws == [ws[0]] + ws[1..];
    }
  }

  /** How `split(None, n)` relates to `split()`: with at most `n` words it
      yields exactly the words; with more it yields the first `n` words and
      one remainder piece whose own words are all the rest. */
  lemma {:induction false} SplitMaxWords(s: string, n: nat)
    ensures |Split(s)| <= n ==> SplitMax(s, n) == Split(s)
    ensures |Split(s)| > n ==>
              && |SplitMax(s, n)| == n + 1
              && SplitMax(s, n)[..n] == Split(s)[..n]
              && Split(SplitMax(s, n)[n]) == Split(s)[n..]
              && Split(s)[n] <= SplitMax(s, n)[n]
    decreases |s|
  {
    var t := SkipSpace(s);
    if t == [] {
    } else if n == 0 {
      assert SplitMax(s, 0) == [t];
      SkipSpaceNoop(t);
      assert Split(t) == Split(s);
      var k := WordLen(t);
      assert Split(s)[0] == t[..k];
    } else {
      var k := WordLen(t);
      var tail := t[k..];
      assert Split(s) == [t[..k]] + Split(tail);
      assert SplitMax(s, n) == [t[..k]] + SplitMax(tail, n - 1);
      SplitMaxWords(tail, n - 1);
      if |Split(s)| <= n {
      } else {
        assert Split(s)[n..] == Split(tail)[n - 1..];
        assert SplitMax(s, n)[n] == SplitMax(tail, n - 1)[n - 1];
        assert SplitMax(s, n)[..n] == [t[..k]] + SplitMax(tail, n - 1)[..n - 1];
        assert Split(s)[..n] == [t[..k]] + Split(tail)[..n - 1];
        assert Split(s)[n] == Split(tail)[n - 1];
      }
    }
  }

  /** The only whitespace in a line of joined words is the separating
      spaces, and the line begins and ends with a word character. */
  lemma {:induction false} JoinSpacedShape(ws: seq<string>)
    requires AllWords(ws) && ws != []
    ensures var line := JoinSpaced(ws);
            && |line| > 0
            && line[0] == ws[0][0]
            && line[|line| - 1] == ws[|ws| - 1][|ws[|ws| - 1]| - 1]
            && forall i :: 0 <= i < |line| ==> line[i] == ' ' || !IsSpace(line[i])
    decreases |ws|
  {
    if |ws| > 1 {
      JoinSpacedShape(ws[1..]);
      assert ws[1..][|ws[1..]| - 1] == ws[|ws| - 1];
      SpacedPairShape(ws[0], JoinSpaced(ws[1..]));
    }
  }

  /** A word, a space and a line of the same shape form such a line. */
  lemma SpacedPairShape(w: string, rest: string)
    requires IsWord(w) && |rest| > 0
    requires forall i :: 0 <= i < |rest| ==> rest[i] == ' ' || !IsSpace(rest[i])
    ensures var line := w + " " + rest;
            && line[0] == w[0]
            && line[|line| - 1] == rest[|rest| - 1]
            && forall i :: 0 <= i < |line| ==> line[i] == ' ' || !IsSpace(line[i])
  {
    var line := w + " " + rest;
    forall i | 0 <= i < |line|
      ensures line[i] == ' ' || !IsSpace(line[i])
    {
      if i < |w| {
        assert line[i] == w[i];
      } else if i > |w| {
        assert line[i] == rest[i - |w| - 1];
      }
    }
  }

  lemma SplitMaxAfterSpace(c: char, s: string, n: nat)
    requires IsSpace(c)
    ensures SplitMax([c] + s, n) == SplitMax(s, n)
  {
    assert ([c] + s)[1..] == s;
  }

  /** A word followed by nothing or by whitespace is the first piece of
      `split(None, n)` for `n > 0`. */
  lemma SplitMaxOfWordThen(w: string, rest: string, n: nat)
    requires IsWord(w) && n > 0
    requires rest == [] || IsSpace(rest[0])
    ensures SplitMax(w + rest, n) == [w] + SplitMax(rest, n - 1)
  {
    var s := w + rest;
    SkipSpaceNoop(s);
    WordLenOfWordThen(w, rest);
    assert s[..|w|] == w;
    assert s[|w|..] == rest;
  }

  /** A joined line starts with the first word's first character. */
  lemma JoinSpacedStart(ws: seq<string>)
    requires AllWords(ws) && ws != []
    ensures |JoinSpaced(ws)| > 0 && !IsSpace(JoinSpaced(ws)[0])
  {
    if |ws| > 1 {
      assert JoinSpaced(ws)[0] == ws[0][0];
    }
  }

  /** `split(None, n)` of a line of more than `n` joined words yields the
      first `n` words and then the rest of the line verbatim. */
  lemma {:induction false} SplitMaxJoinSpaced(ws: seq<string>, n: nat)
    requires AllWords(ws) && |ws| > n
    ensures SplitMax(JoinSpaced(ws), n) == ws[..n] + [JoinSpaced(ws[n..])]
    decreases n
  {
    if n == 0 {
      JoinSpacedStart(ws);
      SkipSpaceNoop(JoinSpaced(ws));
      assert ws[0..] == ws;
    } else {
      SplitMaxJoinSpaced(ws[1..], n - 1);
      SplitMaxJoinSpacedStep(ws, n);
    }
  }

  lemma SplitMaxJoinSpacedStep(ws: seq<string>, n: nat)
    requires AllWords(ws) && |ws| > n > 0
    requires SplitMax(JoinSpaced(ws[1..]), n - 1)
             == ws[1..][..n - 1] + [JoinSpaced(ws[1..][n - 1..])]
    ensures SplitMax(JoinSpaced(ws), n) == ws[..n] + [JoinSpaced(ws[n..])]
  {
    var last := JoinSpaced(ws[n..]);
    SplitMaxJoinSpacedHead(ws, n);
    assert ws[1..][..n - 1] == ws[1..n];
    assert ws[1..][n - 1..] == ws[n..];
    Cut(ws[..n], 1);
    assert ws[..n][..1] == [ws[0]] && ws[..n][1..] == ws[1..n];
    Assoc([ws[0]], ws[1..n], [last]);
  }

  /** For `n > 0`, `split(None, n)` of joined words takes the first word
      and splits the rest with one split fewer. */
  lemma SplitMaxJoinSpacedHead(ws: seq<string>, n: nat)
    requires AllWords(ws) && |ws| > n > 0
    ensures SplitMax(JoinSpaced(ws), n) == [ws[0]] + SplitMax(JoinSpaced(ws[1..]), n - 1)
  {
    var w := ws[0];
    var rest := JoinSpaced(ws[1..]);
    Assoc(w, " ", rest);
    SplitMaxOfWordThen(w, " " + rest, n);
    SplitMaxAfterSpace(' ', rest, n - 1);
  }

  /** Leading whitespace of any length never changes the split. */
  lemma {:induction false} SplitAfterSpaces(sp: string, x: string)
    requires forall i :: 0 <= i < |sp| ==> IsSpace(sp[i])
    ensures Split(sp + x) == Split(x)
    decreases |sp|
  {
    if sp != [] {
      calc {
        Split(sp + x);
        { assert sp + x == [sp[0]] + (sp[1..] + x); }
        Split([sp[0]] + (sp[1..] + x));
        { SplitAfterSpace(sp[0], sp[1..] + x); }
        Split(sp[1..] + x);
        { SplitAfterSpaces(sp[1..], x); }
        Split(x);
      }
    } else {
      assert sp + x == x;
    }
  }

  /** `split()` distributes over a concatenation that does not glue two
      words together: the cut lies next to whitespace or at an end. With
      `Split(w) == [w]` for a word `w` and `Split` of whitespace being
      empty, this determines `split()` completely. */
  lemma {:induction false} SplitConcat(a: string, b: string)
    requires a == [] || b == [] || IsSpace(a[|a| - 1]) || IsSpace(b[0])
    ensures Split(a + b) == Split(a) + Split(b)
    decreases |a|
  {
    if a == [] {
      assert a + b == b;
    } else if IsSpace(a[0]) {
      SplitConcat(a[1..], b);
      SplitConcatSpace(a, b);
    } else {
      var k := WordLen(a);
      if k < |a| {
        SplitConcat(a[k..], b);
      }
      SplitConcatFirstWord(a, b, k);
    }
  }

  lemma Cut<T>(a: seq<T>, k: nat)
    requires k <= |a|
    ensures a == a[..k] + a[k..]
  {
  }

  lemma Assoc<T>(a: seq<T>, b: seq<T>, c: seq<T>)
    ensures a + (b + c) == (a + b) + c
  {
  }

  /** The step of `SplitConcat` for a string that starts with whitespace. */
  lemma SplitConcatSpace(a: string, b: string)
    requires a != [] && IsSpace(a[0])
    requires Split(a[1..] + b) == Split(a[1..]) + Split(b)
    ensures Split(a + b) == Split(a) + Split(b)
  {
    var c, a' := a[0], a[1..];
    Cut(a, 1);
    assert a[..1] == [c];
    Assoc([c], a', b);
    SplitAfterSpace(c, a' + b);
    SplitAfterSpace(c, a');
  }

  /** The step of `SplitConcat` for a string that starts with a word of
      length `k`. */
  lemma SplitConcatFirstWord(a: string, b: string, k: nat)
    requires a != [] && !IsSpace(a[0]) && k == WordLen(a)
    requires b == [] || IsSpace(a[|a| - 1]) || IsSpace(b[0])
    requires k < |a| ==> Split(a[k..] + b) == Split(a[k..]) + Split(b)
    ensures Split(a + b) == Split(a) + Split(b)
  {
    var w, rest := a[..k], a[k..];
    Cut(a, k);
    Assoc(w, rest, b);
    assert rest != [] || b == [] || IsSpace(b[0]) by {
      if rest == [] {
        assert a[|a| - 1] == w[k - 1];
      }
    }
    SplitConcatWord(w, rest, b);
  }

  lemma SplitConcatWord(w: string, rest: string, b: string)
    requires IsWord(w) && (rest == [] || IsSpace(rest[0]))
    requires rest != [] || b == [] || IsSpace(b[0])
    requires rest != [] ==> Split(rest + b) == Split(rest) + Split(b)
    ensures Split(w + (rest + b)) == Split(w + rest) + Split(b)
  {
    var tail := rest + b;
    assert Split(tail) == Split(rest) + Split(b) && (tail == [] || IsSpace(tail[0])) by {
      if rest == [] {
        assert tail == b;
      } else {
        assert tail[0] == rest[0];
      }
    }
    SplitOfWordThen(w, tail);
    SplitOfWordThen(w, rest);
    Assoc([w], Split(rest), Split(b));
  }

  /** `split()` finds no word exactly when the string is all whitespace. */
  lemma SplitEmpty(s: string)
    ensures Split(s) == [] <==> forall i :: 0 <= i < |s| ==> IsSpace(s[i])
  {
    SkipSpaceSuffix(s);
  }

  /** Where the last piece of `split(None, n)` begins: when `n` splits are
      made, the remainder is the input from the start of its `n+1`-th word
      to the very end, so nothing after that word is dropped. */
  lemma {:induction false} SplitMaxRest(s: string, n: nat)
    requires |SplitMax(s, n)| == n + 1
    ensures exists j :: RestAt(s, n, j) && SplitMax(s, n)[n] == s[j..]
    decreases n
  {
    var t := SkipSpace(s);
    if n == 0 {
      SplitMaxRestZero(s);
    } else {
      var k := WordLen(t);
      SplitMaxFirstWord(s, n, t, k);
      SplitMaxRest(t[k..], n - 1);
      SplitMaxRestStep(s, n, t, k);
    }
  }

  /** A string is its leading whitespace followed by what `SkipSpace`
      leaves. */
  lemma SkipSpaceSplit(s: string)
    ensures var t := SkipSpace(s);
            var sp := s[..|s| - |t|];
            && s == sp + t
            && forall i :: 0 <= i < |sp| ==> IsSpace(sp[i])
  {
    SkipSpaceSuffix(s);
    Cut(s, |s| - |SkipSpace(s)|);
  }

  lemma SplitMaxRestZero(s: string)
    requires |SplitMax(s, 0)| == 1
    ensures exists j :: RestAt(s, 0, j) && SplitMax(s, 0)[0] == s[j..]
  {
    var t := SkipSpace(s);
    var sp := s[..|s| - |t|];
    SkipSpaceSplit(s);
    SplitEmpty(sp);
    assert s[..|sp|] == sp;
    assert s[|sp|..] == t;
    assert RestAt(s, 0, |sp|);
  }

  /** The step of `SplitMaxRest` past leading whitespace and one word. */
  lemma SplitMaxRestStep(s: string, n: nat, t: string, k: nat)
    requires n > 0 && |SplitMax(s, n)| == n + 1 && t == SkipSpace(s) && k <= |t|
    requires IsWord(t[..k]) && (t[k..] == [] || IsSpace(t[k..][0]))
    requires SplitMax(s, n)[n] == SplitMax(t[k..], n - 1)[n - 1]
    requires |SplitMax(t[k..], n - 1)| == n
    requires exists j :: RestAt(t[k..], n - 1, j) && SplitMax(t[k..], n - 1)[n - 1] == t[k..][j..]
    ensures exists j :: RestAt(s, n, j) && SplitMax(s, n)[n] == s[j..]
  {
    var sp := s[..|s| - |t|];
    var w, rest := t[..k], t[k..];
    SkipSpaceSplit(s);
    var j' :| RestAt(rest, n - 1, j') && SplitMax(rest, n - 1)[n - 1] == rest[j'..];
    Cut(t, k);
    RestShift(s, sp, w, rest, n, j');
  }

  /** Unfolds `split(None, n)` by one word for `n > 0`. */
  lemma SplitMaxFirstWord(s: string, n: nat, t: string, k: nat)
    requires n > 0 && |SplitMax(s, n)| == n + 1
    requires t == SkipSpace(s) && k == WordLen(t)
    ensures IsWord(t[..k]) && (t[k..] == [] || IsSpace(t[k..][0]))
    ensures SplitMax(s, n)[n] == SplitMax(t[k..], n - 1)[n - 1]
    ensures |SplitMax(t[k..], n - 1)| == n
  {
    assert SplitMax(s, n) == [t[..k]] + SplitMax(t[k..], n - 1);
  }

  /** Moving the start of the rest past leading whitespace and one word
      counts that word. */
  lemma RestShift(s: string, sp: string, w: string, rest: string, n: nat, j': int)
    requires n > 0 && s == sp + (w + rest)
    requires forall i :: 0 <= i < |sp| ==> IsSpace(sp[i])
    requires IsWord(w) && (rest == [] || IsSpace(rest[0]))
    requires RestAt(rest, n - 1, j')
    ensures RestAt(s, n, |sp| + |w| + j') && s[|sp| + |w| + j'..] == rest[j'..]
  {
    var j := |sp| + |w| + j';
    assert j' > 0;
    assert s[..j] == sp + (w + rest[..j']);
    SplitAfterSpaces(sp, w + rest[..j']);
    SplitOfWordThen(w, rest[..j']);
    assert s[j..] == rest[j'..];
    assert s[j - 1] == rest[j' - 1];
  }

  /** Index `j` starts a word that has exactly `n` words before it. */
  predicate RestAt(s: string, n: nat, j: int) {
    && 0 <= j < |s| && (j == 0 || IsSpace(s[j - 1])) && !IsSpace(s[j])
    && |Split(s[..j])| == n
  }

  /** Python's `s.strip()`: whitespace dropped from both ends. */
  function Strip(s: string): (t: string)
    ensures t == [] || (!IsSpace(t[0]) && !IsSpace(t[|t| - 1]))
    ensures exists i, j :: StrippedAt(s, t, i, j)
  {
    var u := SkipSpace(s);
    SkipSpaceSuffix(s);
    var t := StripEnd(u);
    var i, j := |s| - |u|, |s| - |u| + |t|;
    assert t == s[i..j];
    assert forall k :: j <= k < |s| ==> s[k] == u[k - i];
    assert StrippedAt(s, t, i, j);
    t
  }

  /** `t` is `s[i..j]`, and everything outside that piece is whitespace. */
  predicate StrippedAt(s: string, t: string, i: int, j: int) {
    && 0 <= i <= j <= |s| && t == s[i..j]
    && (forall k :: 0 <= k < i ==> IsSpace(s[k]))
    && (forall k :: j <= k < |s| ==> IsSpace(s[k]))
  }

  /** Whitespace dropped from the end only. */
  function StripEnd(s: string): (t: string)
    ensures t <= s
    ensures t == [] || !IsSpace(t[|t| - 1])
    ensures forall i :: |t| <= i < |s| ==> IsSpace(s[i])
  {
    if s != [] && IsSpace(s[|s| - 1]) then StripEnd(s[..|s| - 1]) else s
  }

  /** Python's `s.rstrip(c)` for a one-character argument. */
  function RStripChar(s: string, c: char): (t: string)
    ensures t <= s
    ensures t == [] || t[|t| - 1] != c
    ensures forall i :: |t| <= i < |s| ==> s[i] == c
  {
    if s != [] && s[|s| - 1] == c then RStripChar(s[..|s| - 1], c) else s
  }

  /** Python's `s.split(sep)` for a one-character separator: the pieces
      between separators, empty ones included; there is always one more
      piece than separators. */
  function SplitOn(s: string, sep: char): (parts: seq<string>)
    ensures |parts| >= 1
    ensures forall i :: 0 <= i < |parts| ==> sep !in parts[i]
    decreases |s|
  {
    if s == [] then [[]]
    else
      var rest := SplitOn(s[1..], sep);
      if s[0] == sep then [[]] + rest
      else [[s[0]] + rest[0]] + rest[1..]
  }

  /** `sep.join(parts)` for a one-character separator. */
  function JoinOn(parts: seq<string>, sep: char): string {
    if parts == [] then []
    else if |parts| == 1 then parts[0]
    else parts[0] + [sep] + JoinOn(parts[1..], sep)
  }

  /** `split(sep)` loses nothing: joining the pieces gives the string back. */
  lemma {:induction false} JoinSplitOn(s: string, sep: char)
    ensures JoinOn(SplitOn(s, sep), sep) == s
    decreases |s|
  {
    if s != [] {
      var rest := SplitOn(s[1..], sep);
      JoinSplitOn(s[1..], sep);
      if s[0] == sep {
        assert SplitOn(s, sep) == [[]] + rest;
        assert s == [] + [sep] + s[1..];
      } else {
        var parts := SplitOn(s, sep);
        assert parts == [[s[0]] + rest[0]] + rest[1..];
        if |rest| == 1 {
          assert rest == [rest[0]];
        } else {
          assert JoinOn(rest, sep) == rest[0] + [sep] + JoinOn(rest[1..], sep);
          assert parts[1..] == rest[1..];
        }
      }
    }
  }

  lemma {:induction false} SplitOnWithoutSep(p: string, sep: char)
    requires sep !in p
    ensures SplitOn(p, sep) == [p]
    decreases |p|
  {
    if p != [] {
      SplitOnWithoutSep(p[1..], sep);
      assert [p[0]] + p[1..] == p;
    }
  }

  lemma {:induction false} SplitOnPieceThen(p: string, r: string, sep: char)
    requires sep !in p
    ensures SplitOn(p + [sep] + r, sep) == [p] + SplitOn(r, sep)
    decreases |p|
  {
    var s := p + [sep] + r;
    if p == [] {
      assert s[1..] == r;
    } else {
      assert s[1..] == p[1..] + [sep] + r;
      SplitOnPieceThen(p[1..], r, sep);
      assert [p[0]] + p[1..] == p;
    }
  }

  /** `split(sep)` reads back the pieces `sep.join` wrote, provided no piece
      holds the separator. */
  lemma {:induction false} SplitOnJoinOn(parts: seq<string>, sep: char)
    requires |parts| >= 1
    requires forall i :: 0 <= i < |parts| ==> sep !in parts[i]
    ensures SplitOn(JoinOn(parts, sep), sep) == parts
    decreases |parts|
  {
    if |parts| == 1 {
      SplitOnWithoutSep(parts[0], sep);
    } else {
      SplitOnPieceThen(parts[0], JoinOn(parts[1..], sep), sep);
      SplitOnJoinOn(parts[1..], sep);
      assert parts == [parts[0]] + parts[1..];
    }
  }

  /** Joined non-empty pieces begin with the first piece's first character
      and end with the last piece's last character. */
  lemma {:induction false} JoinOnEnds(parts: seq<string>, sep: char)
    requires |parts| >= 1
    requires forall i :: 0 <= i < |parts| ==> |parts[i]| > 0
    ensures var s := JoinOn(parts, sep);
            |s| > 0 && s[0] == parts[0][0] && s[|s| - 1] == parts[|parts| - 1][|parts[|parts| - 1]| - 1]
    decreases |parts|
  {
    if |parts| > 1 {
      JoinOnEnds(parts[1..], sep);
    }
  }

  lemma StripUnchanged(s: string)
    requires s == [] || (!IsSpace(s[0]) && !IsSpace(s[|s| - 1]))
    ensures Strip(s) == s
  {
    SkipSpaceNoop(s);
  }

  /** Python's slice `s[:n]` for `n >= 0`. */
  function Take<T>(s: seq<T>, n: nat): (t: seq<T>)
    ensures |t| == Min(|s|, n)
    ensures t <= s
  {
    if |s| <= n then s else s[..n]
  }

  /** Python's slice `s[lo:hi]` for `0 <= lo <= hi`: out-of-range bounds
      are clamped to the length. */
  function Slice<T>(s: seq<T>, lo: nat, hi: nat): (t: seq<T>)
    requires lo <= hi
    ensures |t| <= hi - lo
    ensures |s| >= hi ==> t == s[lo..hi]
    ensures lo <= |s| < hi ==> t == s[lo..]
    ensures |s| < lo ==> t == []
  {
    var a := Min(lo, |s|);
    var b := Min(hi, |s|);
    s[a..b]
  }

  /** `sub` occurs in `s` at index `i`. */
  ghost predicate OccursAt(s: string, sub: string, i: int) {
    0 <= i && i + |sub| <= |s| && s[i..i + |sub|] == sub
  }

  /** Every prefix of a string's first word occurs in the string. */
  lemma FirstWordPrefixOccurs(s: string, p: string)
    requires Split(s) != [] && p <= Split(s)[0]
    ensures Contains(s, p)
  {
    var t := SkipSpace(s);
    var d := |s| - |t|;
    SkipSpaceSuffix(s);
    assert p <= t by {
      assert Split(s)[0] == t[..WordLen(t)];
    }
    assert s[d..d + |p|] == p by {
      assert forall i :: 0 <= i < |p| ==> s[d + i] == t[i];
    }
    assert OccursAt(s, p, d);
  }

  /** Python's substring test `sub in s`. */
  function Contains(s: string, sub: string): (b: bool)
    ensures b <==> exists i :: OccursAt(s, sub, i)
    decreases |s|
  {
    if sub <= s then
      assert OccursAt(s, sub, 0);
      true
    else if s == [] then
      false
    else
      var b := Contains(s[1..], sub);
      if b then
        assert exists i :: OccursAt(s, sub, i) by {
          var i :| OccursAt(s[1..], sub, i);
          assert s[i + 1..i + 1 + |sub|] == s[1..][i..i + |sub|];
          assert OccursAt(s, sub, i + 1);
        }
        true
      else
        assert forall i :: OccursAt(s, sub, i) ==> i == 0 || OccursAt(s[1..], sub, i - 1) by {
          forall i | OccursAt(s, sub, i) && i != 0
            ensures OccursAt(s[1..], sub, i - 1)
          {
            assert s[1..][i - 1..i - 1 + |sub|] == s[i..i + |sub|];
          }
        }
        false
  }

  // ---------------------------------------------------------------------
  // Decimal integers

  predicate IsDigit(c: char) {
    '0' <= c <= '9'
  }

  predicate AllDigits(s: string) {
    forall i :: 0 <= i < |s| ==> IsDigit(s[i])
  }

  function DigitValue(c: char): nat
    requires IsDigit(c)
  {
    c as int - '0' as int
  }

  function DigitChar(d: nat): (c: char)
    requires d < 10
    ensures IsDigit(c) && DigitValue(c) == d
  {
    ('0' as int + d) as char
  }

  /** The value of a string of decimal digits, most significant first. */
  function DigitsValue(s: string): nat
    requires AllDigits(s)
  {
    if s == [] then 0
    else DigitsValue(s[..|s| - 1]) * 10 + DigitValue(s[|s| - 1])
  }

  /** Python's `str(n)` for `n >= 0`. */
  function NatToString(n: nat): (s: string)
    ensures |s| > 0 && AllDigits(s)
    ensures IsWord(s)
  {
    if n < 10 then [DigitChar(n)]
    else NatToString(n / 10) + [DigitChar(n % 10)]
  }

  /** Python's `int(s)` on a string holding no whitespace: an optional sign
      followed by at least one ASCII digit; anything else raises, which is
      `None` here. */
  function ParseInt(s: string): (r: Option<int>)
    ensures r.Some? <==> IsNumeral(s)
    ensures r.Some? && AllDigits(s) ==> r.value == DigitsValue(s)
    ensures r.Some? && s[0] == '+' ==> r.value == DigitsValue(s[1..])
    ensures r.Some? && s[0] == '-' ==> r.value == -(DigitsValue(s[1..]) as int)
  {
    if s == [] then None
    else if s[0] == '-' || s[0] == '+' then
      var ds := s[1..];
      if ds != [] && AllDigits(ds) then
        Some(if s[0] == '-' then -(DigitsValue(ds) as int) else DigitsValue(ds))
      else None
    else if AllDigits(s) then Some(DigitsValue(s))
    else None
  }

  /** An optional sign followed by at least one ASCII digit. */
  predicate IsNumeral(s: string) {
    || (|s| > 0 && AllDigits(s))
    || (|s| > 1 && (s[0] == '-' || s[0] == '+') && AllDigits(s[1..]))
  }

  lemma {:induction false} DigitsValueOfNatToString(n: nat)
    ensures DigitsValue(NatToString(n)) == n
  {
    if n >= 10 {
      var s := NatToString(n);
      DigitsValueOfNatToString(n / 10);
      assert s[..|s| - 1] == NatToString(n / 10);
    }
  }

  /** `int(str(n)) == n` for every natural number. */
  lemma ParseNatToString(n: nat)
    ensures ParseInt(NatToString(n)) == Some(n)
  {
    DigitsValueOfNatToString(n);
  }

  /** `int(str(-n)) == -n`: a minus sign before the digits negates. */
  lemma ParseNegNatToString(n: nat)
    ensures ParseInt("-" + NatToString(n)) == Some(-(n as int))
  {
    var s := "-" + NatToString(n);
    assert s[1..] == NatToString(n);
    DigitsValueOfNatToString(n);
  }
}
